=== FILE: README.md ===
# School fees ledger and fee-request workflow, in Dafny

This project models the server core of a small school-fees system.

- **Roster.** The roster of students is kept with a unique key of roll number, class and session.
- **Ledger.** The ledger records fee transactions. A direct payment (`POST /api/fees`) appends one transaction and credits the student's `paidFees`.
- **Fee-request workflow.** An admin sends a student a pending fee request (`POST /api/fee-request`). Paying it (`POST /api/fee-request/pay`) marks it "paid", appends a transaction and credits the student.
- **Login.** Students log in by name, roll number and class.
- **Dashboard.** The admin dashboard sums the ledger and the balances due.

The database is an abstract sequential store, `Db.Store`: three collections in insertion order and one id counter. Each route handler is a pure function from the store and the decoded JSON body to an `Outcome`. An outcome carries the HTTP status, a body and the store after the call. Mongoose behaviour that decides a branch is written out:

- required-field validators;
- the `paymentMode` enum of the ledger;
- number casts (a non-numeric total is a validation error, a non-numeric request amount a failed save);
- trimming with JavaScript's whitespace set;
- the compound unique index;
- strict mode dropping fields the schema does not name;
- `populate` yielding null for a deleted student, which the required validator of the request still passes (it checks the id the path was populated from).

The clock is a `now` parameter.

Modules:

- **Common, Seqs, Text.** `Option`, first-match search, filtering, an insertion sort, and the JavaScript string operations the routes use: trim, ASCII case folding, code-point order and `Number()` on digit strings.
- **Models.** The three schemas and their creation rules.
- **Db.** The store, the lookups, the ledger total per student, and the response bodies.
- **Route modules.** FeesApi, FeeRequestApi, PayApi, StudentsApi and LoginApi, one per route file.
- **Dashboard.** The page's totals and its send-request guard.
- **Invariants.** The store invariant, and the proof that every sequence of calls from empty collections keeps it.
- **Workflow.** What one call makes a later call see.
- **Gaps.** The behaviours the routes let through.
- **Reconciliation.** The dashboard totals against the roster.

Amounts are integers. A JSON value is modelled only by what the routes test of it:

- a string field is `""` when absent or falsy;
- an amount is `Falsy`, or `Truthy(number)`, where `number` is `None` when `Number()` of it is NaN.

Behaviours of the code the model keeps as they are:

- the paid status of a request is stored as lowercase "paid";
- an already-paid request can be paid again;
- an unknown request on the pay route gives 500;
- `GET /api/fees` takes no `studentId` and returns the whole ledger;
- no "request outstanding" flag is stored on a student.

## Model

| member | source | states |
|---|---|---|
| Seqs.FindFirst | src/app/api/students/route.js:158 | the index returned is the first one satisfying the predicate, and there is none exactly when no element satisfies it (how `findById`, `findOne` and `deleteOne` pick a document) |
| Seqs.Filter | src/app/api/fee-request/route.js:21-24 | the result holds exactly the elements satisfying the predicate, each as many times as in the input, and no other element |
| Seqs.FindFirstAgrees | src/app/api/student/login/route.js:26-30 | two queries that agree on every document pick the same first document |
| Seqs.Sort | src/app/api/fees/route.js:13-15 | the result is sorted by the given total preorder and is a permutation of the input |
| Seqs.Insert | src/app/api/students/route.js:9 | inserting into a sorted list keeps it sorted and adds exactly the one element |
| Seqs.SameMembers | src/app/api/fees/route.js:13-15 | two lists that are permutations of each other have the same members |
| Text.TrimStart | src/models/Student.js:5-15 | the result is a suffix of the input, everything removed is JavaScript whitespace, and the result does not start with whitespace |
| Text.TrimEnd | src/models/Student.js:5-15 | the result is a prefix of the input, everything removed is whitespace, and the result does not end with whitespace |
| Text.Trim | src/app/api/students/route.js:35-38 | `String.prototype.trim`: the result has no whitespace at either end, is no longer than the input, and an already trimmed string is returned unchanged |
| Text.TrimCutsOnlyEnds | src/app/api/students/route.js:35-38 | the trimmed string is a contiguous slice of the input, and everything cut off before and after it is whitespace |
| Text.TrimIdempotent | src/models/Student.js:8 | trimming twice is trimming once, so the schema's `trim` after the route's `.trim()` changes nothing |
| Text.EqualsIgnoreCaseSymmetric | src/app/api/student/login/route.js:27 | case-insensitive equality of names is symmetric |
| Text.EqualsIgnoreCaseTransitive | src/app/api/student/login/route.js:27 | case-insensitive equality of names is transitive |
| Text.LexLeTotal | src/app/api/students/route.js:9 | string order on roll numbers compares any two strings |
| Text.LexLeTransitive | src/app/api/students/route.js:9 | string order on roll numbers is transitive |
| Text.LexLeAntisymmetric | src/app/api/students/route.js:9 | two strings ordered both ways are equal |
| Text.ShowNat | src/app/dashboard/page.js:86 | the decimal digits of a natural number are non-empty digits, without a leading zero, whose value is that number |
| Text.ParseShowInt | src/app/dashboard/page.js:86 | `Number()` of an integer's decimal text gives back the integer |
| Models.ParseMode | src/models/FeeTransaction.js:18-22 | a mode string is accepted exactly when it is the name of one of Cash, Online, UPI and Card, and then it denotes that mode |
| Models.ParseModeName | src/models/FeeTransaction.js:18-22 | each enum value's name parses back to that value |
| Models.CreateFeeRequest | src/models/FeeRequest.js:3-10 | a request document saves exactly when the student name is present and the amount is a number; it then carries the given fields, mode "Fee Request", status "Pending" and the creation time |
| Models.CreateTransaction | src/models/FeeTransaction.js:3-29 | a transaction is created exactly when the name is present and the mode is in the enum; it then carries the given fields and the creation time as `date` and `createdAt` |
| Db.FindStudent | src/app/api/fees/route.js:51-55 | the student found has the id asked for, and there is none exactly when no student has it |
| Db.FindRequest | src/app/api/fee-request/pay/route.js:11 | the request found has the id asked for, and there is none exactly when no request has it |
| Db.FindPending | src/app/api/fee-request/route.js:59-64 | the request found belongs to the student and has status exactly "Pending", and there is none exactly when no such request exists |
| Db.Reject | src/app/api/fees/route.js:34-39 | an error response carries the failure and leaves the store as it was |
| Db.NewestFirstIsPreorder | src/app/api/fees/route.js:14 | ordering by `createdAt`, newest first, is a total preorder on transactions and on requests |
| FeesApi.Get | src/app/api/fees/route.js:13-17 | 200 with every transaction, unfiltered and newest first; the store is unchanged |
| FeesApi.Post | src/app/api/fees/route.js:34-96 | falsy fields give 400, and so does a non-numeric or non-positive amount; an unknown student gives 404 and an amount above the due gives 400; 500 holds exactly when those checks pass but the name is missing or the mode is outside the enum. Every failure leaves the store unchanged. 201 holds exactly when all checks pass; it appends one transaction with the student's id and name, the amount and the mode, and credits exactly that student, so the due stays non-negative |
| FeeRequestApi.Get | src/app/api/fee-request/route.js:14-24 | 400 exactly when the student id is missing; otherwise 200 with exactly that student's requests whose status is "Pending", each once per stored copy, newest first; the store is unchanged |
| FeeRequestApi.Post | src/app/api/fee-request/route.js:43-90 | 400 for a missing id or a falsy amount, 404 for an unknown student and 409 exactly when a pending request exists; any failure leaves the store unchanged. 200 appends one pending request with the name snapshot, `Number(amount)` and mode "Fee Request", and leaves the roster and the ledger alone |
| PayApi.Post | src/app/api/fee-request/pay/route.js:11-29 | an unknown request gives 500 and no write. Otherwise the request is saved as "paid" with the mode, and 200 holds exactly when its student still exists and the ledger accepts the entry; every 500 leaves the ledger and the roster alone; 200 appends one transaction with the request's student and amount, and adds the amount to that student's `paidFees` without a bound check |
| StudentsApi.Assemble | src/app/api/students/route.js:34-43 | a form becomes a student document exactly when its trimmed required fields are non-empty and its total is a number; the document is schema-valid, has the form's key and carries the form's fields |
| StudentsApi.RollNoIsPreorder | src/app/api/students/route.js:9 | sorting by roll number as strings uses a total preorder |
| StudentsApi.Get | src/app/api/students/route.js:9-10 | 200 with every student, ordered by roll number as strings; the store is unchanged |
| StudentsApi.Clash | src/app/api/students/route.js:99-104 | there is no clash exactly when every student holding the key is the excluded student itself |
| StudentsApi.Post | src/app/api/students/route.js:27-68 | 400 exactly when a field is falsy or the total is not a number, 409 exactly when the key exists, in both cases with no insert; 201 exactly when the form is complete, numeric and its key free. 201 appends one student with a fresh id, the trimmed fields, `paidFees` 0 and a key no other student holds |
| StudentsApi.Put | src/app/api/students/route.js:85-141 | 400 exactly when the id or a field is missing; 409 exactly when another student holds the trimmed key; 500 exactly when there is no conflict but the form fails the update validators or the number cast; 200 otherwise. 200 overwrites exactly the named student's fields and keeps its id and `paidFees`; an unknown id gives 200 with no student and no change |
| StudentsApi.Overwrite | src/app/api/students/route.js:116-130 | the update writes the form's fields over the student and keeps its identity and paid amount |
| StudentsApi.RemoveAt | src/app/api/students/route.js:158 | removing position `i` keeps the order of all other students |
| StudentsApi.Delete | src/app/api/students/route.js:151-169 | 400 for a missing id and 404 for an unknown one; 200 removes exactly that student and leaves requests and transactions untouched |
| LoginApi.Post | src/app/api/student/login/route.js:17-53 | read-only in every branch. 400 for a missing field; 200 exactly when some student matches the name case-insensitively and the roll number and class exactly, answering `success` with that student's public projection; otherwise 401 |
| LoginApi.WrongRollNoFails | src/app/api/student/login/route.js:26-39 | a student whose roll number differs from the trimmed input never matches |
| LoginApi.NameCaseIgnored | src/app/api/student/login/route.js:27 | any two names whose trimmed forms are equal ignoring ASCII case give the same login outcome |
| LoginApi.NameCaseExample | src/app/api/student/login/route.js:27 | the worked case: "rahul" logs in as the stored "Rahul" |
| Dashboard.TotalCollection | src/app/dashboard/page.js:103 | the fold `transactions.reduce` summing every transaction's amount; `Dashboard.TotalCollectionAppend` states its step and `Reconciliation.CollectionMatchesPaid` ties it to the sum of `paidFees` |
| Dashboard.TotalPending | src/app/dashboard/page.js:104 | the fold `students.reduce` summing each student's balance due; `Dashboard.TotalPendingUpdate` states how one changed row moves it |
| Models.BalanceDue | src/app/dashboard/page.js:218 | the per-row due, `totalFees - paidFees`; `Dashboard.TotalPendingUpdate` sums it and `Workflow.ExactDueAccepted` pays it off exactly |
| LoginApi.Matches | src/app/api/student/login/route.js:26-30 | the `findOne` query: name equal to the trimmed input ignoring ASCII case, roll number equal to the trimmed input, class equal as sent; `LoginApi.NameCaseIgnored` and `LoginApi.WrongRollNoFails` state its behaviour for all inputs |
| Dashboard.Recent | src/app/dashboard/page.js:175 | the recent view is the first ten transactions, or all of them when there are fewer |
| Dashboard.TotalCollectionAppend | src/app/dashboard/page.js:103 | one more transaction adds its amount to the total collection |
| Dashboard.TotalPendingUpdate | src/app/dashboard/page.js:104 | changing one student changes the pending total by the change in that row's balance due |
| Dashboard.TotalPaidUpdate | src/app/dashboard/page.js:104 | changing one student changes the paid total by the change in that row's `paidFees` |
| Dashboard.SendFeeRequest | src/app/dashboard/page.js:79-88 | a request is sent exactly when an amount is typed and a student is selected. A typed zero or non-number is sent as a falsy amount and answered 400 with no write. Any other number goes to the fee-request POST with the selected id |
| Invariants.EmptyStoreInvariant | src/models/Student.js:52-55 | empty collections satisfy the invariant |
| Invariants.PaidTotalAppend | src/app/api/fees/route.js:73-83 | one more transaction adds its amount to its own student's ledger total and to no other student's |
| Invariants.PaidTotalUnreferenced | src/models/FeeTransaction.js:5-9 | a student no transaction refers to has a ledger total of 0 |
| Invariants.CreditKeepsAgreement | src/app/api/fees/route.js:73-83 | appending a transaction and crediting the same student keeps every `paidFees` equal to that student's ledger total |
| Invariants.CreditStep | src/app/api/fee-request/pay/route.js:18-27 | the write shape of a completed payment keeps the invariant |
| Invariants.MarkPaidStep | src/app/api/fee-request/pay/route.js:13-16 | marking a request paid keeps the invariant |
| Invariants.AddRequestStep | src/app/api/fee-request/route.js:59-80 | adding a pending request for a student with none pending keeps the invariant |
| Invariants.AddStudentStep | src/models/Student.js:52-55 | adding a schema-valid student with a fresh id and an unused key keeps the invariant |
| Invariants.ReplaceStudentStep | src/app/api/students/route.js:99-130 | replacing a student with one of the same id and `paidFees` and a key no other student holds keeps the invariant |
| Invariants.RemoveStudentStep | src/app/api/students/route.js:158-165 | removing a student keeps the invariant |
| Invariants.FeesPostKeepsInvariant | src/app/api/fees/route.js:34-96 | a direct payment keeps the invariant |
| Invariants.FeeRequestPostKeepsInvariant | src/app/api/fee-request/route.js:43-90 | creating a request keeps the invariant, in particular at most one "Pending" request per student |
| Invariants.PayKeepsInvariant | src/app/api/fee-request/pay/route.js:11-29 | paying, including the partial write, keeps the invariant |
| Invariants.StudentsPostKeepsInvariant | src/app/api/students/route.js:27-68 | creating a student keeps the invariant, in particular the unique key |
| Invariants.StudentsPutKeepsInvariant | src/app/api/students/route.js:85-141 | updating a student keeps the invariant |
| Invariants.StudentsDeleteKeepsInvariant | src/app/api/students/route.js:151-169 | deleting a student keeps the invariant |
| Invariants.Handle | src/app/api/fees/route.js:9-97 | the GET and login routes never write; a failure writes only on the pay route; the id counter never goes back |
| Invariants.HandleKeepsInvariant | src/app/api/fee-request/pay/route.js:5-29 | every route keeps the invariant |
| Invariants.RunKeepsInvariant | src/app/api/students/route.js:20-75 | any sequence of calls keeps the invariant |
| Invariants.ReachableInvariant | src/models/Student.js:52-55 | every store reached from empty collections has unique ids and unique keys, at most one pending request per student, and each `paidFees` equal to the student's ledger total |
| Workflow.PaidRequestLeavesPending | src/app/api/fee-request/route.js:21-69 | after a pay, the request is not in the pending list and a new request for the student is not refused with 409, because "paid" is not "Pending" |
| Workflow.SecondRequestConflicts | src/app/api/fee-request/route.js:59-69 | right after a request is sent, a second one for the same student gets 409 |
| Workflow.CreatedRequestListed | src/app/api/fee-request/route.js:21-24 | a request just sent appears in the student's pending list |
| Workflow.CreatedStudentCanLogIn | src/app/api/student/login/route.js:26-30 | a student just created can log in with the name, roll number and class it was created with |
| Workflow.DeleteUndoesCreate | src/app/api/students/route.js:151-169 | deleting the student just created restores the roster, requests and ledger |
| Workflow.PutKnown | src/app/api/students/route.js:99-130 | on a known id with a complete form and no conflict, PUT is exactly the overwrite of that student |
| Workflow.OverwriteIdempotent | src/app/api/students/route.js:116-130 | writing the same form over a student twice is writing it once |
| Workflow.PutIdempotent | src/app/api/students/route.js:116-130 | sending the same update twice gives the same result as sending it once |
| Workflow.ExactDueAccepted | src/app/api/fees/route.js:63 | a payment of exactly the due is accepted and leaves nothing due |
| Workflow.NothingDueRejectsPayment | src/app/api/fees/route.js:63-70 | with nothing due, every positive payment is refused with 400 and changes nothing |
| Workflow.CashPaymentExample | src/app/api/fees/route.js:58-83 | with 5000 due in total and 2000 paid, a 1000 cash payment is recorded and leaves 3000 paid |
| Gaps.PayTwiceCreditsTwice | src/app/api/fee-request/pay/route.js:11-27 | paying the same request twice succeeds twice, appends two transactions for its amount, and credits the student twice |
| Gaps.UnknownModeLeavesRequestPaid | src/app/api/fee-request/pay/route.js:13-27 | a mode outside the ledger's enum ends in 500 with the request saved as "paid", no transaction and no credit |
| Gaps.DeletedStudentLeavesRequestPaid | src/app/api/fee-request/pay/route.js:11-19 | paying a request whose student was deleted ends in 500 with the request saved as "paid", no transaction and no credit |
| Gaps.BankIsNotAMode | src/app/student/page.js:323 | the "Bank" mode the student page sends is not in the ledger's enum |
| Gaps.PayIgnoresBalance | src/app/api/fee-request/pay/route.js:25-27 | a request larger than the due, once paid, leaves the student owing less than nothing |
| Gaps.RequestIgnoresBalance | src/app/api/fee-request/route.js:72-80 | a request is accepted for any non-zero amount, above the due or negative |
| Gaps.UpdateIgnoresPaid | src/app/api/students/route.js:116-128 | an update may set `totalFees` below what is already paid |
| Reconciliation.IdSet | src/models/FeeTransaction.js:5-9 | the roster's ids are exactly the ids some student holds |
| Reconciliation.PaidSumEmpty | src/app/dashboard/page.js:103 | with an empty ledger, no student has paid anything |
| Reconciliation.PaidSumAppend | src/app/dashboard/page.js:103-104 | one more transaction adds its amount to the per-student sum exactly when its student is on the roster |
| Reconciliation.PaidSumIsCollection | src/app/dashboard/page.js:103 | when no transaction is orphaned, the per-student ledger totals add up to the total collection |
| Reconciliation.TotalPaidIsPaidSum | src/app/dashboard/page.js:104 | when each `paidFees` is that student's ledger total, the roster's paid sum is the per-student sum |
| Reconciliation.CollectionMatchesPaid | src/app/dashboard/page.js:103-104 | under the invariant and with no orphaned transaction, the total collection equals the sum of `paidFees` |
| Reconciliation.TotalPaidRemove | src/app/api/students/route.js:158 | removing a student takes exactly that student's `paidFees` off the paid sum |
| Reconciliation.DeleteOpensGap | src/app/api/students/route.js:158-169 | deleting a student leaves the total collection above the roster's paid sum by exactly that student's `paidFees` |
| Reconciliation.DirectPaymentMovesTotals | src/app/api/fees/route.js:73-83 | a direct payment of `n` adds `n` to the collection and to the paid sum, and takes `n` off the pending total |
| Reconciliation.PayMovesTotals | src/app/api/fee-request/pay/route.js:18-27 | a completed request payment moves the three totals by the request's amount |

## Left out

- The MongoDB connection and its cache (`dbConnect`). The store is an abstract sequence of documents per collection, and `src/lib/mongodb.js` is not part of this model.
- Concurrency. Calls are modelled one after another. The check-then-insert of a fee request and a double-clicked pay are races in the real system. The sequential model cannot show them.
- Database failures on every route, reads and writes alike: every find, create, save, update and delete is modelled as succeeding. One consequence left unmodelled is the direct-payment partial write: `POST /api/fees` creates the transaction before saving the student, so a failed save would answer 500 with a ledger entry and no credit to `paidFees`.
- The duplicate-key error code 11000. It is modelled as the key-exists condition, checked before the insert.
- Error messages. `ValidationError` message aggregation and all message texts are reduced to a `Failure` kind.
- JSON values other than strings and numbers, such as objects or arrays in a field. A string method called on a non-string field throws; the model does not cover that.
- Floating-point amounts, NaN arithmetic and `Number()` on decimals, exponents or surrounding whitespace. Amounts are integers, and `Number()` of the dashboard's input is modelled on an optional `-` followed by digits.
- Malformed ObjectIds. A CastError from `findById` on a malformed id, which the routes turn into 500, is not modelled; ids are natural numbers.
- Regular-expression semantics in login. The name is compared for ASCII case-insensitive equality. The route interpolates the name unescaped into a regular expression, so regex metacharacters in a login name are not modelled, and neither is Unicode case folding.
- The `|| 0` and `|| ""` fallbacks. The dashboard's `|| 0` never applies to a stored document, whose amounts are required numbers. An explicit empty `parentName` or `contact` is the same as an absent one.
- Student timestamps and every `updatedAt`. Only the `createdAt` of requests and transactions is modelled, with the ledger's `date` as the same instant; `Models.Student` carries no timestamps.
- `paidAt` on a paid request and `isRequestSent` on a student. Neither field is in its schema, so strict mode drops both and they are never stored.
- Registration, admin and session authentication (next-auth), and all pages except the dashboard's calculations and its send-request guard. These are the student dashboard, PDF receipts, polling and forms.

=== FILE: common.dfy ===
/** Vocabulary shared by every module: optional values and document ids. */
module Common {

  /** A value that may be absent: a JSON field that was not sent, a query that found nothing. */
  datatype Option<+T> = None | Some(value: T)

  /** A document id. MongoDB's ObjectIds are abstracted to natural numbers issued by the store. */
  type Id = nat
}

=== FILE: dashboard.dfy ===
/**
 * The figures the admin dashboard computes from the `/api/students` and `/api/fees`
 * listings, and its guard before sending a fee request. Amounts and fees are
 * required numbers in the schemas, so the `|| 0` fallbacks of the page never apply
 * to a stored document and are not modelled.
 */
module Dashboard {
  import opened Common
  import opened Text
  import opened Models
  import opened Db
  import FeeRequestApi

  /** "Total Collection": the sum of all transaction amounts. */
  function TotalCollection(ledger: seq<FeeTransaction>): int
  {
    if ledger == [] then 0 else TotalCollection(ledger[..|ledger| - 1]) + ledger[|ledger| - 1].amount
  }

  /** "Pending Fees": the sum over students of the per-row balance due. */
  function TotalPending(students: seq<Student>): int
  {
    if students == [] then 0 else TotalPending(students[..|students| - 1]) + BalanceDue(students[|students| - 1])
  }

  /** The sum of the students' `paidFees`. */
  function TotalPaid(students: seq<Student>): int
  {
    if students == [] then 0 else TotalPaid(students[..|students| - 1]) + students[|students| - 1].paidFees
  }

  /** "Recent Transactions": the first ten rows of the listing. */
  function Recent(ts: seq<FeeTransaction>): (r: seq<FeeTransaction>)
    ensures |r| == if |ts| < 10 then |ts| else 10
    ensures r == ts[..|r|]
  {
    if |ts| <= 10 then ts else ts[..10]
  }

  lemma {:induction false} TotalCollectionAppend(ledger: seq<FeeTransaction>, t: FeeTransaction)
    ensures TotalCollection(ledger + [t]) == TotalCollection(ledger) + t.amount
  {
    assert (ledger + [t])[..|ledger|] == ledger;
  }

  /** Changing one student changes the pending total by the change in that row's balance. */
  lemma {:induction false} TotalPendingUpdate(students: seq<Student>, i: nat, st: Student)
    requires i < |students|
    ensures TotalPending(students[i := st]) == TotalPending(students) - BalanceDue(students[i]) + BalanceDue(st)
  {
    var n := |students| - 1;
    if i < n {
      assert students[i := st][..n] == students[..n][i := st];
      TotalPendingUpdate(students[..n], i, st);
    } else {
      assert students[i := st][..n] == students[..n];
    }
  }

  /** Likewise for the paid total. */
  lemma {:induction false} TotalPaidUpdate(students: seq<Student>, i: nat, st: Student)
    requires i < |students|
    ensures TotalPaid(students[i := st]) == TotalPaid(students) - students[i].paidFees + st.paidFees
  {
    var n := |students| - 1;
    if i < n {
      assert students[i := st][..n] == students[..n][i := st];
      TotalPaidUpdate(students[..n], i, st);
    } else {
      assert students[i := st][..n] == students[..n];
    }
  }

  /** The JSON amount the page posts: `Number(requestAmount)`, where NaN serialises as null. */
  function PostedAmount(requestAmount: string): Amount
  {
    match ParseNumber(requestAmount)
    case None => Falsy
    case Some(n) => if n == 0 then Falsy else Truthy(Some(n))
  }

  /**
   * "Send Request": something is sent exactly when an amount is typed and a student
   * is selected; a typed zero or a non-number reaches the API as a falsy amount and
   * is refused there, otherwise the POST receives the selected id and the typed amount.
   */
  function SendFeeRequest(requestAmount: string, selected: Option<Student>, s: Store, now: int): (r: Option<Outcome>)
    ensures r.Some? <==> requestAmount != "" && selected.Some?
    ensures r.Some? && r.value.status != 200 ==> r.value.store == s
    ensures r.Some? && (ParseNumber(requestAmount).None? || ParseNumber(requestAmount) == Some(0)) ==>
      r.value.status == 400 && r.value.store == s
    ensures forall n: int :: n != 0 && ParseNumber(requestAmount) == Some(n) && selected.Some? ==>
      r == Some(FeeRequestApi.Post(s, Some(selected.value.id), Truthy(Some(n)), now))
    ensures forall n: int :: n != 0 && requestAmount == ShowInt(n) && selected.Some? ==>
      r == Some(FeeRequestApi.Post(s, Some(selected.value.id), Truthy(Some(n)), now))
  {
    if requestAmount == "" || selected.None? then None
    else
      assert forall n: int :: requestAmount == ShowInt(n) ==> ParseNumber(requestAmount) == Some(n) by {
        forall n: int | requestAmount == ShowInt(n) { ParseShowInt(n); }
      }
      Some(FeeRequestApi.Post(s, Some(selected.value.id), PostedAmount(requestAmount), now))
  }
}

=== FILE: db.dfy ===
/**
 * The abstract document store standing in for the three MongoDB collections,
 * the lookups the handlers perform on it, and the HTTP responses they return.
 */
module Db {
  import opened Common
  import opened Seqs
  import opened Models

  /**
   * The collections in natural (insertion) order, and the next id to issue.
   * Every inserted document takes `nextId`, which then advances.
   */
  datatype Store = Store(
    students: seq<Student>,
    requests: seq<FeeRequest>,
    ledger: seq<FeeTransaction>,
    nextId: Id)

  const EmptyStore: Store := Store([], [], [], 0)

  /** `Student.findById`. */
  function FindStudent(students: seq<Student>, id: Id): (r: Option<nat>)
    ensures r.Some? ==> r.value < |students| && students[r.value].id == id
    ensures r.None? <==> forall k :: 0 <= k < |students| ==> students[k].id != id
  {
    FindFirst(students, (st: Student) => st.id == id)
  }

  /** `FeeRequest.findById`. */
  function FindRequest(requests: seq<FeeRequest>, id: Id): (r: Option<nat>)
    ensures r.Some? ==> r.value < |requests| && requests[r.value].id == id
    ensures r.None? <==> forall k :: 0 <= k < |requests| ==> requests[k].id != id
  {
    FindFirst(requests, (rq: FeeRequest) => rq.id == id)
  }

  /** The query `{ studentId, status: "Pending" }`: the status must be exactly "Pending". */
  predicate PendingOf(studentId: Id, rq: FeeRequest)
  {
    rq.studentId == studentId && IsPending(rq)
  }

  /** `findOne({ studentId, status: "Pending" })`. */
  function FindPending(requests: seq<FeeRequest>, studentId: Id): (r: Option<nat>)
    ensures r.Some? ==> r.value < |requests| && requests[r.value].studentId == studentId && IsPending(requests[r.value])
    ensures r.None? <==> forall k :: 0 <= k < |requests| ==> !(requests[k].studentId == studentId && IsPending(requests[k]))
  {
    FindFirst(requests, (rq: FeeRequest) => PendingOf(studentId, rq))
  }

  /** The sum of the amounts of the ledger entries that reference `studentId`. */
  function PaidTotal(ledger: seq<FeeTransaction>, studentId: Id): int
  {
    if ledger == [] then 0
    else
      var t := ledger[|ledger| - 1];
      PaidTotal(ledger[..|ledger| - 1], studentId) + (if t.studentId == studentId then t.amount else 0)
  }

  /** The reasons a handler answers with an error; each stands for the message it sends. */
  datatype Failure =
    | FieldsMissing
    | AmountInvalid
    | StudentIdMissing
    | StudentNotFound
    | DueExceeded(due: int)
    | RequestAlreadySent
    | DuplicateStudent
    | ValidationFailed
    | RecordNotFound
    | ServerError

  datatype Body =
    | Error(failure: Failure)
    | Transactions(transactions: seq<FeeTransaction>)
    | Recorded(transaction: FeeTransaction)
    | Requests(requests: seq<FeeRequest>)
    | RequestSent
    | PaySucceeded
    | Students(students: seq<Student>)
    | Created(student: Student)
    | Updated(updated: Option<Student>)
    | Deleted
    | LoggedIn(success: bool, profile: Profile)

  /** A handler's answer: the HTTP status, the JSON body, and the store after the call. */
  datatype Outcome = Outcome(status: int, body: Body, store: Store)

  /** An error answer that writes nothing. */
  function Reject(s: Store, status: int, failure: Failure): (r: Outcome)
    ensures r.store == s && r.body.Error?
  {
    Outcome(status, Error(failure), s)
  }

  /** Newest first, by `createdAt`: the order of `.sort({ createdAt: -1 })`. */
  predicate NewerTransaction(a: FeeTransaction, b: FeeTransaction)
  {
    a.createdAt >= b.createdAt
  }

  predicate NewerRequest(a: FeeRequest, b: FeeRequest)
  {
    a.createdAt >= b.createdAt
  }

  lemma NewestFirstIsPreorder()
    ensures TotalPreorder(NewerTransaction)
    ensures TotalPreorder(NewerRequest)
  {
  }
}

=== FILE: fee_request_api.dfy ===
/** The `/api/fee-request` route: a student's pending requests and request creation. */
module FeeRequestApi {
  import opened Common
  import opened Seqs
  import opened Models
  import opened Db

  /** GET: the student's pending requests, newest first. */
  function Get(s: Store, studentId: Option<Id>): (r: Outcome)
    ensures r.store == s
    ensures r.status == 400 <==> studentId.None?
    ensures r.status != 400 ==> r.status == 200 && r.body.Requests?
    ensures r.status == 200 ==>
      forall rq :: rq in r.body.requests <==> rq in s.requests && rq.studentId == studentId.value && rq.status == "Pending"
    ensures r.status == 200 ==>
      forall rq :: multiset(r.body.requests)[rq] ==
        if rq.studentId == studentId.value && rq.status == "Pending" then multiset(s.requests)[rq] else 0
    ensures r.status == 200 ==> SortedBy(r.body.requests, NewerRequest)
  {
    if studentId.None? then Reject(s, 400, StudentIdMissing)
    else
      NewestFirstIsPreorder();
      var mine := Filter(s.requests, (rq: FeeRequest) => PendingOf(studentId.value, rq));
      var sorted := Sort(mine, NewerRequest);
      Outcome(200, Requests(sorted), s)
  }

  /**
   * POST: creates a pending request for the student unless one is already pending.
   * Neither the amount's sign nor the balance due is checked, and neither the
   * student's `paidFees` nor the ledger changes.
   */
  function Post(s: Store, studentId: Option<Id>, amount: Amount, now: int): (r: Outcome)
    ensures r.status in {200, 400, 404, 409, 500}
    ensures r.status != 200 ==> r.store == s
    ensures r.status == 400 <==> studentId.None? || amount.Falsy?
    ensures r.status == 404 <==> studentId.Some? && amount.Truthy? && FindStudent(s.students, studentId.value).None?
    ensures r.status == 409 <==>
      && studentId.Some? && amount.Truthy? && FindStudent(s.students, studentId.value).Some?
      && FindPending(s.requests, studentId.value).Some?
    ensures r.status == 200 <==>
      && studentId.Some? && amount.Truthy? && amount.number.Some?
      && FindStudent(s.students, studentId.value).Some?
      && FindPending(s.requests, studentId.value).None?
      && s.students[FindStudent(s.students, studentId.value).value].name != ""
    ensures r.status == 200 ==>
      var st := s.students[FindStudent(s.students, studentId.value).value];
      && r.body == RequestSent
      && |r.store.requests| == |s.requests| + 1
      && r.store.requests[..|s.requests|] == s.requests
      && var rq := r.store.requests[|s.requests|];
      && rq.studentId == st.id && rq.studentName == st.name && rq.amount == amount.number.value
      && rq.paymentMode == "Fee Request" && rq.status == "Pending" && rq.createdAt == now
      && rq.id == s.nextId && r.store.nextId == s.nextId + 1
      && r.store.students == s.students && r.store.ledger == s.ledger
  {
    if studentId.None? || amount.Falsy? then Reject(s, 400, FieldsMissing)
    else match FindStudent(s.students, studentId.value)
      case None => Reject(s, 404, StudentNotFound)
      case Some(i) =>
        if FindPending(s.requests, studentId.value).Some? then Reject(s, 409, RequestAlreadySent)
        else
          var st := s.students[i];
          match CreateFeeRequest(s.nextId, st.id, st.name, amount.number, now)
          case None => Reject(s, 500, ServerError)
          case Some(rq) =>
            // The `isRequestSent` update names no path of the Student schema and writes nothing.
            Outcome(200, RequestSent, s.(requests := s.requests + [rq], nextId := s.nextId + 1))
  }
}

=== FILE: fees_api.dfy ===
/** The `/api/fees` route: the ledger listing and direct payment recording. */
module FeesApi {
  import opened Common
  import opened Seqs
  import opened Models
  import opened Db

  /** GET: every transaction, unfiltered, newest first. */
  function Get(s: Store): (r: Outcome)
    ensures r.status == 200 && r.store == s && r.body.Transactions?
    ensures multiset(r.body.transactions) == multiset(s.ledger)
    ensures SortedBy(r.body.transactions, NewerTransaction)
  {
    NewestFirstIsPreorder();
    Outcome(200, Transactions(Sort(s.ledger, NewerTransaction)), s)
  }

  /** The request passes the field and amount checks and names a student in the store. */
  predicate Admissible(s: Store, studentId: Option<Id>, amount: Amount, paymentMode: string)
  {
    && studentId.Some? && amount.Truthy? && amount.number.Some? && amount.number.value > 0
    && paymentMode != "" && FindStudent(s.students, studentId.value).Some?
  }

  /**
   * POST: records a payment of `amount` for the student. The amount must be a positive
   * number no larger than the balance due; the transaction is created before the
   * student's `paidFees` is credited, so a rejected transaction credits nothing.
   */
  function Post(s: Store, studentId: Option<Id>, amount: Amount, paymentMode: string, now: int): (r: Outcome)
    ensures r.status in {201, 400, 404, 500}
    ensures r.status != 201 ==> r.store == s
    ensures studentId.None? || amount.Falsy? || paymentMode == "" ==> r.status == 400
    ensures amount.Truthy? && (amount.number.None? || amount.number.value <= 0) ==> r.status == 400
    ensures r.status == 404 <==>
      && studentId.Some? && amount.Truthy? && amount.number.Some? && amount.number.value > 0
      && paymentMode != "" && FindStudent(s.students, studentId.value).None?
    ensures r.status == 201 <==>
      Admissible(s, studentId, amount, paymentMode) &&
      var st := s.students[FindStudent(s.students, studentId.value).value];
      amount.number.value <= BalanceDue(st) && st.name != "" && ParseMode(paymentMode).Some?
    ensures r.status == 500 <==>
      Admissible(s, studentId, amount, paymentMode) &&
      var st := s.students[FindStudent(s.students, studentId.value).value];
      amount.number.value <= BalanceDue(st) && (st.name == "" || ParseMode(paymentMode).None?)
    ensures r.status == 201 ==>
      var i := FindStudent(s.students, studentId.value).value;
      var st := s.students[i];
      var n := amount.number.value;
      && r.body.Recorded?
      && r.store.ledger == s.ledger + [r.body.transaction]
      && r.body.transaction.studentId == st.id && r.body.transaction.studentName == st.name
      && r.body.transaction.amount == n && ModeName(r.body.transaction.paymentMode) == paymentMode
      && r.body.transaction.createdAt == now
      && r.body.transaction.id == s.nextId && r.store.nextId == s.nextId + 1
      && |r.store.students| == |s.students|
      && r.store.students[i] == st.(paidFees := st.paidFees + n)
      && (forall k :: 0 <= k < |s.students| && k != i ==> r.store.students[k] == s.students[k])
      && r.store.requests == s.requests
      && BalanceDue(r.store.students[i]) >= 0
  {
    if studentId.None? || amount.Falsy? || paymentMode == "" then Reject(s, 400, FieldsMissing)
    else if amount.number.None? || amount.number.value <= 0 then Reject(s, 400, AmountInvalid)
    else match FindStudent(s.students, studentId.value)
      case None => Reject(s, 404, StudentNotFound)
      case Some(i) =>
        var st := s.students[i];
        var n := amount.number.value;
        var due := st.totalFees - st.paidFees;
        if n > due then Reject(s, 400, DueExceeded(due))
        else match CreateTransaction(s.nextId, st.id, st.name, n, paymentMode, now)
          case None => Reject(s, 500, ServerError)
          case Some(t) =>
            Outcome(201, Recorded(t), s.(
              ledger := s.ledger + [t],
              students := s.students[i := st.(paidFees := st.paidFees + n)],
              nextId := s.nextId + 1))
  }
}

=== FILE: gaps.dfy ===
/**
 * What the handlers let through. Each lemma states, for all inputs meeting its
 * requires, a behaviour a reader of the routes might expect to be refused: paying a
 * request twice, a paid request with no ledger entry, payments and totals past the
 * balance due. The ledger outliving a deleted student is stated in the
 * Reconciliation module.
 */
module Gaps {
  import opened Common
  import opened Models
  import opened Db
  import FeeRequestApi
  import PayApi
  import StudentsApi

  /**
   * Pay does not look at the request's status: paying a request a second time succeeds
   * again, appends a second transaction for the same amount and credits the student twice.
   */
  lemma PayTwiceCreditsTwice(s: Store, requestId: Option<Id>, paymentMode: string, now: int, later: int)
    requires PayApi.Post(s, requestId, paymentMode, now).status == 200
    ensures var s1 := PayApi.Post(s, requestId, paymentMode, now).store;
      var r := PayApi.Post(s1, requestId, paymentMode, later);
      var rq := s.requests[FindRequest(s.requests, requestId.value).value];
      var j := FindStudent(s.students, rq.studentId).value;
      && r.status == 200
      && |r.store.ledger| == |s.ledger| + 2
      && r.store.ledger[|s.ledger|].amount == rq.amount && r.store.ledger[|s.ledger| + 1].amount == rq.amount
      && r.store.ledger[|s.ledger|].studentId == rq.studentId && r.store.ledger[|s.ledger| + 1].studentId == rq.studentId
      && r.store.students[j].paidFees == s.students[j].paidFees + 2 * rq.amount
  {
    var s1 := PayApi.Post(s, requestId, paymentMode, now).store;
    var i := FindRequest(s.requests, requestId.value).value;
    var rq := s.requests[i];
    var j := FindStudent(s.students, rq.studentId).value;
    forall k | 0 <= k < i ensures s1.requests[k].id != requestId.value {
      assert s1.requests[k] == s.requests[k];
    }
    assert FindRequest(s1.requests, requestId.value) == Some(i);
    forall k | 0 <= k < j ensures s1.students[k].id != rq.studentId {
      assert s1.students[k] == s.students[k];
    }
    assert FindStudent(s1.students, rq.studentId) == Some(j);
    var r := PayApi.Post(s1, requestId, paymentMode, later);
    assert r.store.ledger[..|s1.ledger|] == s1.ledger;
    assert r.store.ledger[|s.ledger|] == s1.ledger[|s.ledger|];
  }

  /**
   * A mode outside the ledger's enum ("Bank", say) ends the payment in 500 after the
   * request has been saved as "paid": the request is paid, yet no transaction was
   * added and nothing was credited.
   */
  lemma UnknownModeLeavesRequestPaid(s: Store, requestId: Option<Id>, paymentMode: string, now: int)
    requires PayApi.Found(s, requestId)
    requires ParseMode(paymentMode).None?
    ensures var r := PayApi.Post(s, requestId, paymentMode, now);
      && r.status == 500
      && r.store.requests[FindRequest(s.requests, requestId.value).value].status == PaidStatus
      && r.store.ledger == s.ledger && r.store.students == s.students
  {
  }

  /**
   * A request whose student was deleted is still saved as "paid" before the handler
   * trips over the missing student: 500, with no transaction and no credit.
   */
  lemma DeletedStudentLeavesRequestPaid(s: Store, requestId: Option<Id>, paymentMode: string, now: int)
    requires PayApi.Found(s, requestId)
    requires FindStudent(s.students, s.requests[FindRequest(s.requests, requestId.value).value].studentId).None?
    ensures var r := PayApi.Post(s, requestId, paymentMode, now);
      && r.status == 500
      && r.store.requests[FindRequest(s.requests, requestId.value).value].status == PaidStatus
      && r.store.ledger == s.ledger && r.store.students == s.students
  {
  }

  /** The student portal offers "Bank", which the ledger's enum does not contain. */
  lemma BankIsNotAMode()
    ensures ParseMode("Bank").None?
  {
    assert forall m :: ModeName(m) != "Bank";
  }

  /**
   * Pay credits the request's amount whatever is due: a request larger than the
   * balance leaves the student with more paid than owed.
   */
  lemma PayIgnoresBalance(s: Store, requestId: Option<Id>, paymentMode: string, now: int)
    requires PayApi.Post(s, requestId, paymentMode, now).status == 200
    requires var rq := s.requests[FindRequest(s.requests, requestId.value).value];
      rq.amount > BalanceDue(s.students[FindStudent(s.students, rq.studentId).value])
    ensures var r := PayApi.Post(s, requestId, paymentMode, now);
      var rq := s.requests[FindRequest(s.requests, requestId.value).value];
      BalanceDue(r.store.students[FindStudent(s.students, rq.studentId).value]) < 0
  {
  }

  /**
   * A fee request is accepted for any non-zero amount, above the balance due and
   * below zero alike, as long as the student exists, has a name and has nothing pending.
   */
  lemma RequestIgnoresBalance(s: Store, studentId: Id, n: int, now: int)
    requires FindStudent(s.students, studentId).Some?
    requires s.students[FindStudent(s.students, studentId).value].name != ""
    requires FindPending(s.requests, studentId).None?
    ensures var r := FeeRequestApi.Post(s, Some(studentId), Truthy(Some(n)), now);
      r.status == 200 && r.store.requests[|s.requests|].amount == n
  {
  }

  /** An update may lower `totalFees` below what is already paid. */
  lemma UpdateIgnoresPaid(s: Store, id: Id, f: StudentsApi.StudentForm)
    requires StudentsApi.Put(s, Some(id), f).status == 200
    requires FindStudent(s.students, id).Some?
    requires f.totalFees.number.Some? && f.totalFees.number.value < s.students[FindStudent(s.students, id).value].paidFees
    ensures var r := StudentsApi.Put(s, Some(id), f);
      BalanceDue(r.store.students[FindStudent(s.students, id).value]) < 0
  {
  }
}

=== FILE: invariants.dfy ===
/**
 * The invariant every sequence of handler calls keeps, starting from empty
 * collections: ids are unique and issued by the store, the roster's unique key
 * holds, stored students satisfy their schema, a student has at most one "Pending"
 * request, and every student's `paidFees` equals the sum of that student's ledger
 * entries. The balance bound `paidFees <= totalFees` is not part of it: only the
 * direct-payment path respects it (see the Gaps module).
 */
module Invariants {
  import opened Common
  import opened Models
  import opened Db
  import FeesApi
  import FeeRequestApi
  import PayApi
  import StudentsApi
  import LoginApi

  ghost predicate DistinctIds(s: Store)
  {
    && (forall i, j :: 0 <= i < j < |s.students| ==> s.students[i].id != s.students[j].id)
    && (forall i, j :: 0 <= i < j < |s.requests| ==> s.requests[i].id != s.requests[j].id)
    && (forall i, j :: 0 <= i < j < |s.ledger| ==> s.ledger[i].id != s.ledger[j].id)
  }

  /** Every id in the store, and every student a request or transaction references, was issued before `nextId`. */
  ghost predicate IdsIssued(s: Store)
  {
    && (forall i :: 0 <= i < |s.students| ==> s.students[i].id < s.nextId)
    && (forall i :: 0 <= i < |s.requests| ==> s.requests[i].id < s.nextId && s.requests[i].studentId < s.nextId)
    && (forall i :: 0 <= i < |s.ledger| ==> s.ledger[i].id < s.nextId && s.ledger[i].studentId < s.nextId)
  }

  ghost predicate UniqueKeys(students: seq<Student>)
  {
    forall i, j :: 0 <= i < j < |students| ==> Key(students[i]) != Key(students[j])
  }

  ghost predicate SchemaValid(students: seq<Student>)
  {
    forall i :: 0 <= i < |students| ==> ValidStudent(students[i])
  }

  ghost predicate AtMostOnePending(requests: seq<FeeRequest>)
  {
    forall i, j :: 0 <= i < j < |requests| && IsPending(requests[i]) && IsPending(requests[j]) ==>
      requests[i].studentId != requests[j].studentId
  }

  /** Ledger/balance agreement. */
  ghost predicate LedgerAgrees(s: Store)
  {
    forall i :: 0 <= i < |s.students| ==> s.students[i].paidFees == PaidTotal(s.ledger, s.students[i].id)
  }

  ghost predicate Invariant(s: Store)
  {
    && DistinctIds(s) && IdsIssued(s)
    && UniqueKeys(s.students) && SchemaValid(s.students)
    && AtMostOnePending(s.requests)
    && LedgerAgrees(s)
  }

  lemma EmptyStoreInvariant()
    ensures Invariant(EmptyStore)
  {
  }

  lemma PaidTotalAppend(ledger: seq<FeeTransaction>, t: FeeTransaction, id: Id)
    ensures PaidTotal(ledger + [t], id) == PaidTotal(ledger, id) + (if t.studentId == id then t.amount else 0)
  {
    assert (ledger + [t])[..|ledger|] == ledger;
  }

  /** A student id that no ledger entry references has paid nothing. */
  lemma {:induction false} PaidTotalUnreferenced(ledger: seq<FeeTransaction>, id: Id)
    requires forall i :: 0 <= i < |ledger| ==> ledger[i].studentId != id
    ensures PaidTotal(ledger, id) == 0
  {
    if ledger != [] {
      PaidTotalUnreferenced(ledger[..|ledger| - 1], id);
    }
  }

  /** Appending a transaction for student `j` and crediting its amount to `j` keeps the agreement. */
  lemma CreditKeepsAgreement(s: Store, j: nat, t: FeeTransaction, s': Store)
    requires LedgerAgrees(s) && DistinctIds(s)
    requires j < |s.students| && t.studentId == s.students[j].id
    requires s'.ledger == s.ledger + [t]
    requires s'.students == s.students[j := s.students[j].(paidFees := s.students[j].paidFees + t.amount)]
    ensures LedgerAgrees(s')
  {
    forall i | 0 <= i < |s'.students|
      ensures s'.students[i].paidFees == PaidTotal(s'.ledger, s'.students[i].id)
    {
      PaidTotalAppend(s.ledger, t, s.students[i].id);
      if i != j {
        assert s.students[i].id != s.students[j].id by {
          if i < j {} else {}
        }
      }
    }
  }

  /** The write shape of a completed payment: one new ledger entry for student `j`, credited to `j`. */
  lemma CreditStep(s: Store, j: nat, t: FeeTransaction, s': Store)
    requires Invariant(s)
    requires j < |s.students| && t.studentId == s.students[j].id && t.id == s.nextId
    requires s'.ledger == s.ledger + [t] && s'.requests == s.requests && s'.nextId == s.nextId + 1
    requires s'.students == s.students[j := s.students[j].(paidFees := s.students[j].paidFees + t.amount)]
    ensures Invariant(s')
  {
    CreditKeepsAgreement(s, j, t, s');
    assert Key(s'.students[j]) == Key(s.students[j]);
    forall i | 0 <= i < |s'.ledger|
      ensures s'.ledger[i].id < s'.nextId && s'.ledger[i].studentId < s'.nextId
    {
      if i < |s.ledger| { assert s'.ledger[i] == s.ledger[i]; }
    }
    forall a, b | 0 <= a < b < |s'.ledger|
      ensures s'.ledger[a].id != s'.ledger[b].id
    {
      assert s'.ledger[a] == s.ledger[a];
      if b < |s.ledger| { assert s'.ledger[b] == s.ledger[b]; }
    }
  }

  /** The write shape of the first step of a payment: request `i` marked "paid". */
  lemma MarkPaidStep(s: Store, i: nat, mode: string, s': Store)
    requires Invariant(s)
    requires i < |s.requests|
    requires s'.requests == s.requests[i := s.requests[i].(status := PaidStatus, paymentMode := mode)]
    requires s'.students == s.students && s'.ledger == s.ledger && s'.nextId == s.nextId
    ensures Invariant(s')
  {
    assert LedgerAgrees(s');
    forall a, b | 0 <= a < b < |s'.requests|
      ensures s'.requests[a].id != s'.requests[b].id
    {
      assert s'.requests[a].id == s.requests[a].id && s'.requests[b].id == s.requests[b].id;
    }
  }

  /** The write shape of a created request: a fresh pending request for a student with none pending. */
  lemma AddRequestStep(s: Store, rq: FeeRequest, s': Store)
    requires Invariant(s)
    requires rq.id == s.nextId && rq.studentId < s.nextId
    requires forall k :: 0 <= k < |s.requests| ==> !(s.requests[k].studentId == rq.studentId && IsPending(s.requests[k]))
    requires s'.requests == s.requests + [rq] && s'.nextId == s.nextId + 1
    requires s'.students == s.students && s'.ledger == s.ledger
    ensures Invariant(s')
  {
    assert LedgerAgrees(s');
    var n := |s.requests|;
    forall a, b | 0 <= a < b < |s'.requests|
      ensures s'.requests[a].id != s'.requests[b].id
      ensures IsPending(s'.requests[a]) && IsPending(s'.requests[b]) ==> s'.requests[a].studentId != s'.requests[b].studentId
    {
      assert s'.requests[a] == s.requests[a];
      if b < n { assert s'.requests[b] == s.requests[b]; }
    }
    forall k | 0 <= k < |s'.requests|
      ensures s'.requests[k].id < s'.nextId && s'.requests[k].studentId < s'.nextId
    {
      if k < n { assert s'.requests[k] == s.requests[k]; }
    }
  }

  /** The write shape of a created student: a fresh, schema-valid student with a free key and nothing paid. */
  lemma AddStudentStep(s: Store, st: Student, s': Store)
    requires Invariant(s)
    requires st.id == s.nextId && st.paidFees == 0 && ValidStudent(st)
    requires forall k :: 0 <= k < |s.students| ==> Key(s.students[k]) != Key(st)
    requires s'.students == s.students + [st] && s'.nextId == s.nextId + 1
    requires s'.requests == s.requests && s'.ledger == s.ledger
    ensures Invariant(s')
  {
    var n := |s.students|;
    PaidTotalUnreferenced(s.ledger, st.id);
    forall k | 0 <= k < |s'.students|
      ensures s'.students[k].paidFees == PaidTotal(s'.ledger, s'.students[k].id)
      ensures s'.students[k].id < s'.nextId && ValidStudent(s'.students[k])
    {
      if k < n { assert s'.students[k] == s.students[k]; }
    }
    forall a, b | 0 <= a < b < |s'.students|
      ensures s'.students[a].id != s'.students[b].id && Key(s'.students[a]) != Key(s'.students[b])
    {
      assert s'.students[a] == s.students[a];
      if b < n { assert s'.students[b] == s.students[b]; }
    }
  }

  /**
   * The write shape of an update: student `i` replaced by a schema-valid record with the same
   * id and `paidFees`, whose key no other student holds.
   */
  lemma ReplaceStudentStep(s: Store, i: nat, st: Student, s': Store)
    requires Invariant(s)
    requires i < |s.students| && st.id == s.students[i].id && st.paidFees == s.students[i].paidFees && ValidStudent(st)
    requires forall k :: 0 <= k < |s.students| && Key(s.students[k]) == Key(st) ==> s.students[k].id == st.id
    requires s'.students == s.students[i := st]
    requires s'.requests == s.requests && s'.ledger == s.ledger && s'.nextId == s.nextId
    ensures Invariant(s')
  {
    forall a, b | 0 <= a < b < |s'.students|
      ensures s'.students[a].id != s'.students[b].id && Key(s'.students[a]) != Key(s'.students[b])
    {
      if a != i && b != i {
        assert s'.students[a] == s.students[a] && s'.students[b] == s.students[b];
      }
    }
  }

  /** The write shape of a deletion: student `i` removed, nothing else touched. */
  lemma RemoveStudentStep(s: Store, i: nat, s': Store)
    requires Invariant(s)
    requires i < |s.students|
    requires s'.students == StudentsApi.RemoveAt(s.students, i)
    requires s'.requests == s.requests && s'.ledger == s.ledger && s'.nextId == s.nextId
    ensures Invariant(s')
  {
    var t := s'.students;
    forall k | 0 <= k < |t|
      ensures t[k] == s.students[if k < i then k else k + 1]
    {
    }
    forall a, b | 0 <= a < b < |t|
      ensures t[a].id != t[b].id && Key(t[a]) != Key(t[b])
    {
      var a' := if a < i then a else a + 1;
      var b' := if b < i then b else b + 1;
      assert a' < b' && t[a] == s.students[a'] && t[b] == s.students[b'];
    }
  }

  /** A direct payment keeps the invariant. */
  lemma FeesPostKeepsInvariant(s: Store, studentId: Option<Id>, amount: Amount, paymentMode: string, now: int)
    requires Invariant(s)
    ensures Invariant(FeesApi.Post(s, studentId, amount, paymentMode, now).store)
  {
    var r := FeesApi.Post(s, studentId, amount, paymentMode, now);
    if r.status == 201 {
      var i := FindStudent(s.students, studentId.value).value;
      var st := s.students[i];
      assert r.store.students == s.students[i := st.(paidFees := st.paidFees + r.body.transaction.amount)];
      CreditStep(s, i, r.body.transaction, r.store);
    }
  }

  /** Creating a fee request keeps the invariant; in particular at most one request per student stays pending. */
  lemma FeeRequestPostKeepsInvariant(s: Store, studentId: Option<Id>, amount: Amount, now: int)
    requires Invariant(s)
    ensures Invariant(FeeRequestApi.Post(s, studentId, amount, now).store)
  {
    var r := FeeRequestApi.Post(s, studentId, amount, now);
    if r.status == 200 {
      var n := |s.requests|;
      var rq := r.store.requests[n];
      assert r.store.requests == s.requests + [rq];
      AddRequestStep(s, rq, r.store);
    }
  }

  /** Paying a request keeps the invariant, whether the payment completes or stops after the first write. */
  lemma PayKeepsInvariant(s: Store, requestId: Option<Id>, paymentMode: string, now: int)
    requires Invariant(s)
    ensures Invariant(PayApi.Post(s, requestId, paymentMode, now).store)
  {
    var r := PayApi.Post(s, requestId, paymentMode, now);
    if PayApi.Found(s, requestId) {
      var i := FindRequest(s.requests, requestId.value).value;
      var rq := s.requests[i];
      var marked := s.(requests := r.store.requests);
      assert r.store.requests == s.requests[i := rq.(status := PaidStatus, paymentMode := paymentMode)];
      MarkPaidStep(s, i, paymentMode, marked);
      if r.status == 200 {
        var j := FindStudent(s.students, rq.studentId).value;
        var st := s.students[j];
        var t := r.store.ledger[|s.ledger|];
        assert r.store.ledger == s.ledger + [t];
        assert r.store.students == s.students[j := st.(paidFees := st.paidFees + t.amount)];
        CreditStep(marked, j, t, r.store);
      } else {
        assert r.store == marked;
      }
    }
  }

  /** Adding a student keeps the invariant: a fresh id has no ledger entries and the key was free. */
  lemma StudentsPostKeepsInvariant(s: Store, f: StudentsApi.StudentForm)
    requires Invariant(s)
    ensures Invariant(StudentsApi.Post(s, f).store)
  {
    var r := StudentsApi.Post(s, f);
    if r.status == 201 {
      AddStudentStep(s, r.body.student, r.store);
    }
  }

  /** Updating a student keeps the invariant: identity and `paidFees` are kept, and the new key is not another student's. */
  lemma StudentsPutKeepsInvariant(s: Store, id: Option<Id>, f: StudentsApi.StudentForm)
    requires Invariant(s)
    ensures Invariant(StudentsApi.Put(s, id, f).store)
  {
    var r := StudentsApi.Put(s, id, f);
    if r.status == 200 && FindStudent(s.students, id.value).Some? {
      var i := FindStudent(s.students, id.value).value;
      ReplaceStudentStep(s, i, r.store.students[i], r.store);
    }
  }

  /** Deleting a student keeps the invariant; its requests and transactions remain, referencing an issued id. */
  lemma StudentsDeleteKeepsInvariant(s: Store, id: Option<Id>)
    requires Invariant(s)
    ensures Invariant(StudentsApi.Delete(s, id).store)
  {
    var r := StudentsApi.Delete(s, id);
    if r.status == 200 {
      RemoveStudentStep(s, FindStudent(s.students, id.value).value, r.store);
    }
  }

  /** The requests the HTTP API accepts. */
  datatype Request =
    | ListTransactions
    | RecordPayment(studentId: Option<Id>, amount: Amount, paymentMode: string)
    | ListPendingRequests(pendingFor: Option<Id>)
    | SendRequest(requestFor: Option<Id>, requestAmount: Amount)
    | PayRequest(requestId: Option<Id>, payMode: string)
    | ListStudents
    | AddStudent(form: StudentsApi.StudentForm)
    | UpdateStudent(updateId: Option<Id>, updateForm: StudentsApi.StudentForm)
    | RemoveStudent(removeId: Option<Id>)
    | StudentLogin(name: string, rollNo: string, cls: string)

  predicate ReadOnly(req: Request)
  {
    req.ListTransactions? || req.ListPendingRequests? || req.ListStudents? || req.StudentLogin?
  }

  /** Routing of a request to its handler; `now` is the server clock at the call. */
  function Handle(s: Store, req: Request, now: int): (r: Outcome)
    ensures ReadOnly(req) ==> r.store == s
    ensures r.status >= 400 ==> r.store == s || req.PayRequest?
    ensures r.store.nextId >= s.nextId
  {
    match req
    case ListTransactions => FeesApi.Get(s)
    case RecordPayment(sid, amount, mode) => FeesApi.Post(s, sid, amount, mode, now)
    case ListPendingRequests(sid) => FeeRequestApi.Get(s, sid)
    case SendRequest(sid, amount) => FeeRequestApi.Post(s, sid, amount, now)
    case PayRequest(rid, mode) => PayApi.Post(s, rid, mode, now)
    case ListStudents => StudentsApi.Get(s)
    case AddStudent(f) => StudentsApi.Post(s, f)
    case UpdateStudent(id, f) => StudentsApi.Put(s, id, f)
    case RemoveStudent(id) => StudentsApi.Delete(s, id)
    case StudentLogin(name, rollNo, cls) => LoginApi.Post(s, name, rollNo, cls)
  }

  lemma HandleKeepsInvariant(s: Store, req: Request, now: int)
    requires Invariant(s)
    ensures Invariant(Handle(s, req, now).store)
  {
    match req
    case RecordPayment(sid, amount, mode) => FeesPostKeepsInvariant(s, sid, amount, mode, now);
    case SendRequest(sid, amount) => FeeRequestPostKeepsInvariant(s, sid, amount, now);
    case PayRequest(rid, mode) => PayKeepsInvariant(s, rid, mode, now);
    case AddStudent(f) => StudentsPostKeepsInvariant(s, f);
    case UpdateStudent(id, f) => StudentsPutKeepsInvariant(s, id, f);
    case RemoveStudent(id) => StudentsDeleteKeepsInvariant(s, id);
    case _ =>
  }

  /** A timestamped call. */
  datatype Call = Call(req: Request, now: int)

  /** The store after serving `calls` one at a time, in order. */
  function Run(s: Store, calls: seq<Call>): Store
    decreases calls
  {
    if calls == [] then s
    else Run(Handle(s, calls[0].req, calls[0].now).store, calls[1..])
  }

  lemma {:induction false} RunKeepsInvariant(s: Store, calls: seq<Call>)
    requires Invariant(s)
    ensures Invariant(Run(s, calls))
    decreases calls
  {
    if calls != [] {
      HandleKeepsInvariant(s, calls[0].req, calls[0].now);
      RunKeepsInvariant(Handle(s, calls[0].req, calls[0].now).store, calls[1..]);
    }
  }

  /** Every store the API can reach from empty collections satisfies the invariant. */
  lemma ReachableInvariant(calls: seq<Call>)
    ensures Invariant(Run(EmptyStore, calls))
  {
    EmptyStoreInvariant();
    RunKeepsInvariant(EmptyStore, calls);
  }
}

=== FILE: login_api.dfy ===
/** The `/api/student/login` route: identification by name, roll number and class. */
module LoginApi {
  import opened Common
  import opened Seqs
  import opened Text
  import opened Models
  import opened Db

  /**
   * The query of the handler: the name matches the trimmed input ignoring case,
   * the roll number equals the trimmed input, the class equals the input as sent.
   */
  predicate Matches(st: Student, name: string, rollNo: string, cls: string)
  {
    EqualsIgnoreCase(st.name, Trim(name)) && st.rollNo == Trim(rollNo) && st.cls == cls
  }

  /** POST: the first matching student's public fields, or 401; the store is only read. */
  function Post(s: Store, name: string, rollNo: string, cls: string): (r: Outcome)
    ensures r.store == s
    ensures r.status in {200, 400, 401}
    ensures r.status == 400 <==> name == "" || rollNo == "" || cls == ""
    ensures r.status == 200 <==>
      && name != "" && rollNo != "" && cls != ""
      && exists k :: 0 <= k < |s.students| && Matches(s.students[k], name, rollNo, cls)
    ensures r.status == 401 ==> r.body == Error(RecordNotFound)
    ensures r.status == 200 ==>
      && r.body.LoggedIn? && r.body.success
      && exists k :: 0 <= k < |s.students| && Matches(s.students[k], name, rollNo, cls)
                     && r.body.profile == ProfileOf(s.students[k])
  {
    if name == "" || rollNo == "" || cls == "" then Reject(s, 400, FieldsMissing)
    else match FindFirst(s.students, (st: Student) => Matches(st, name, rollNo, cls))
      case None => Reject(s, 401, RecordNotFound)
      case Some(k) => Outcome(200, LoggedIn(true, ProfileOf(s.students[k])), s)
  }

  /** A roll number no student holds fails, whatever the name and class. */
  lemma WrongRollNoFails(s: Store, name: string, rollNo: string, cls: string)
    requires forall k :: 0 <= k < |s.students| ==> s.students[k].rollNo != Trim(rollNo)
    ensures Post(s, name, rollNo, cls).status != 200
  {
  }

  /**
   * Case is ignored in the name: two names whose trimmed forms differ only in ASCII
   * letter case log in (or fail) alike, with the same roll number and class.
   */
  lemma {:induction false} NameCaseIgnored(s: Store, name: string, other: string, rollNo: string, cls: string)
    requires name != "" && other != ""
    requires EqualsIgnoreCase(Trim(name), Trim(other))
    ensures Post(s, name, rollNo, cls) == Post(s, other, rollNo, cls)
  {
    forall k | 0 <= k < |s.students|
      ensures Matches(s.students[k], name, rollNo, cls) == Matches(s.students[k], other, rollNo, cls)
    {
      var st := s.students[k];
      EqualsIgnoreCaseSymmetric(Trim(name), Trim(other));
      if EqualsIgnoreCase(st.name, Trim(name)) {
        EqualsIgnoreCaseTransitive(st.name, Trim(name), Trim(other));
      }
      if EqualsIgnoreCase(st.name, Trim(other)) {
        EqualsIgnoreCaseTransitive(st.name, Trim(other), Trim(name));
      }
    }
    FindFirstAgrees(s.students, (st: Student) => Matches(st, name, rollNo, cls), (st: Student) => Matches(st, other, rollNo, cls));
  }

  /** The worked case: "rahul" finds the stored "Rahul". */
  lemma NameCaseExample(st: Student)
    requires st.name == "Rahul" && st.rollNo == "12" && st.cls == "5"
    ensures Post(Store([st], [], [], st.id + 1), "rahul", "12", "5").status == 200
  {
    assert IsTrimmed("rahul") && IsTrimmed("12");
    assert Lower('R') == Lower('r');
    assert EqualsIgnoreCase(st.name, "rahul");
    assert Matches(st, "rahul", "12", "5");
  }
}

=== FILE: models.dfy ===
/**
 * The three Mongoose schemas of the fee system as immutable records, with their
 * defaults, the compound unique key of a student and the creation-time
 * validation each schema performs.
 */
module Models {
  import opened Common
  import opened Text

  /**
   * A JSON value where the handlers expect an amount: falsy (absent, null, 0 or "")
   * or truthy, with `Number(value)` either an integer or NaN (`None`, a non-numeric string).
   * `Truthy(Some(0))` is the string "0", which is truthy although its number is 0.
   */
  datatype Amount = Falsy | Truthy(number: Option<int>)

  /** The payment modes the FeeTransaction schema's enum admits. */
  datatype PaymentMode = Cash | Online | UPI | Card

  function ModeName(m: PaymentMode): string
  {
    match m
    case Cash => "Cash"
    case Online => "Online"
    case UPI => "UPI"
    case Card => "Card"
  }

  /** The enum validator: a mode string is admitted exactly when it names a mode. */
  function ParseMode(s: string): (r: Option<PaymentMode>)
    ensures r.Some? ==> ModeName(r.value) == s
    ensures r.None? ==> forall m: PaymentMode :: ModeName(m) != s
  {
    if s == "Cash" then Some(Cash)
    else if s == "Online" then Some(Online)
    else if s == "UPI" then Some(UPI)
    else if s == "Card" then Some(Card)
    else None
  }

  lemma ParseModeName(m: PaymentMode)
    ensures ParseMode(ModeName(m)) == Some(m)
  {
  }

  /** A Student document. `cls` is the schema's `class` path. */
  datatype Student = Student(
    id: Id,
    name: string,
    rollNo: string,
    cls: string,
    session: string,
    parentName: string,
    contact: string,
    totalFees: int,
    paidFees: int)

  /** The compound unique index `{ rollNo, class, session }`. */
  datatype StudentKey = StudentKey(rollNo: string, cls: string, session: string)

  function Key(st: Student): StudentKey
  {
    StudentKey(st.rollNo, st.cls, st.session)
  }

  /** What the Student schema demands of a stored document: required paths present, trimmed paths trimmed. */
  predicate ValidStudent(st: Student)
  {
    && st.name != "" && IsTrimmed(st.name)
    && st.rollNo != "" && IsTrimmed(st.rollNo)
    && st.cls != ""
    && st.session != "" && IsTrimmed(st.session)
  }

  /** The balance due shown per row of the dashboard and checked by a direct payment. */
  function BalanceDue(st: Student): int
  {
    st.totalFees - st.paidFees
  }

  const PendingStatus: string := "Pending"
  const PaidStatus: string := "paid"
  const RequestPaymentMode: string := "Fee Request"

  /** A FeeRequest document. `status` and `paymentMode` are free strings in the schema. */
  datatype FeeRequest = FeeRequest(
    id: Id,
    studentId: Id,
    studentName: string,
    amount: int,
    paymentMode: string,
    status: string,
    createdAt: int)

  predicate IsPending(rq: FeeRequest)
  {
    rq.status == PendingStatus
  }

  /** A FeeTransaction document; `createdAt` comes from the schema's timestamps. */
  datatype FeeTransaction = FeeTransaction(
    id: Id,
    studentId: Id,
    studentName: string,
    amount: int,
    paymentMode: PaymentMode,
    date: int,
    createdAt: int)

  /**
   * `FeeRequest` construction and save: the defaults for mode, status and creation
   * time; the document is rejected when a required path is missing or the amount is NaN.
   */
  function CreateFeeRequest(id: Id, studentId: Id, studentName: string, amount: Option<int>, now: int)
    : (r: Option<FeeRequest>)
    ensures r.Some? <==> studentName != "" && amount.Some?
    ensures r.Some? ==>
      && r.value.id == id && r.value.studentId == studentId && r.value.studentName == studentName
      && r.value.amount == amount.value && r.value.createdAt == now
      && r.value.paymentMode == RequestPaymentMode && IsPending(r.value)
  {
    if studentName == "" || amount.None? then None
    else Some(FeeRequest(id, studentId, studentName, amount.value, RequestPaymentMode, PendingStatus, now))
  }

  /**
   * `FeeTransaction.create`: rejected unless the student name is present and the mode
   * is in the enum; `date` and `createdAt` both take the creation time.
   */
  function CreateTransaction(id: Id, studentId: Id, studentName: string, amount: int, mode: string, now: int)
    : (r: Option<FeeTransaction>)
    ensures r.Some? <==> studentName != "" && ParseMode(mode).Some?
    ensures r.Some? ==>
      && r.value.id == id && r.value.studentId == studentId && r.value.studentName == studentName
      && r.value.amount == amount && ModeName(r.value.paymentMode) == mode
      && r.value.date == now && r.value.createdAt == now
  {
    match ParseMode(mode)
    case None => None
    case Some(m) =>
      if studentName == "" then None
      else Some(FeeTransaction(id, studentId, studentName, amount, m, now, now))
  }

  /** The public fields the student login returns. */
  datatype Profile = Profile(id: Id, name: string, rollNo: string, cls: string, totalFees: int, paidFees: int)

  function ProfileOf(st: Student): Profile
  {
    Profile(st.id, st.name, st.rollNo, st.cls, st.totalFees, st.paidFees)
  }
}

=== FILE: pay_api.dfy ===
/**
 * The `/api/fee-request/pay` route. It looks the request up, marks it "paid" and
 * saves it, creates the ledger entry, and increments the student's `paidFees`, in
 * that order and with no guard: an already-paid request, a deleted student or a
 * mode outside the ledger's enum are not checked before the first write, and a
 * missing request is not checked at all (the dereference throws).
 */
module PayApi {
  import opened Common
  import opened Models
  import opened Db

  /** The request id is given and names a stored request. */
  predicate Found(s: Store, requestId: Option<Id>)
  {
    requestId.Some? && FindRequest(s.requests, requestId.value).Some?
  }

  /** The request exists and its populated student is still in the store. */
  predicate Resolvable(s: Store, requestId: Option<Id>)
  {
    && Found(s, requestId)
    && FindStudent(s.students, s.requests[FindRequest(s.requests, requestId.value).value].studentId).Some?
  }

  /**
   * POST. A missing or unknown request throws before any write (500). Otherwise the
   * request is saved as "paid" first. If its student is gone, the save still passes
   * (Mongoose validates a populated path that came back null against the id it was
   * populated from), and reading the null student's `_id` then throws: 500. If the
   * ledger rejects the entry the call also ends in 500. In both cases the request is
   * paid but there is no transaction and no credit.
   */
  function Post(s: Store, requestId: Option<Id>, paymentMode: string, now: int): (r: Outcome)
    ensures r.status == 200 || r.status == 500
    ensures !Found(s, requestId) ==> r.status == 500 && r.store == s
    ensures r.status == 200 <==>
      Resolvable(s, requestId) &&
      var rq := s.requests[FindRequest(s.requests, requestId.value).value];
      s.students[FindStudent(s.students, rq.studentId).value].name != "" && ParseMode(paymentMode).Some?
    ensures Found(s, requestId) ==>
      var i := FindRequest(s.requests, requestId.value).value;
      var rq := s.requests[i];
      && |r.store.requests| == |s.requests|
      && r.store.requests[i] == rq.(status := "paid", paymentMode := paymentMode)
      && (forall k :: 0 <= k < |s.requests| && k != i ==> r.store.requests[k] == s.requests[k])
    ensures r.status == 500 ==> r.store.ledger == s.ledger && r.store.students == s.students && r.store.nextId == s.nextId
    ensures r.status == 200 ==>
      var rq := s.requests[FindRequest(s.requests, requestId.value).value];
      var j := FindStudent(s.students, rq.studentId).value;
      var st := s.students[j];
      && r.body == PaySucceeded
      && |r.store.ledger| == |s.ledger| + 1
      && r.store.ledger[..|s.ledger|] == s.ledger
      && r.store.ledger[|s.ledger|].studentId == rq.studentId
      && r.store.ledger[|s.ledger|].studentName == st.name
      && r.store.ledger[|s.ledger|].amount == rq.amount
      && ModeName(r.store.ledger[|s.ledger|].paymentMode) == paymentMode
      && r.store.ledger[|s.ledger|].id == s.nextId && r.store.nextId == s.nextId + 1
      && |r.store.students| == |s.students|
      && r.store.students[j] == st.(paidFees := st.paidFees + rq.amount)
      && (forall k :: 0 <= k < |s.students| && k != j ==> r.store.students[k] == s.students[k])
  {
    if requestId.None? then Reject(s, 500, ServerError)
    else match FindRequest(s.requests, requestId.value)
      case None => Reject(s, 500, ServerError)
      case Some(i) =>
        var rq := s.requests[i];
        // `paidAt` names no path of the FeeRequest schema and is not persisted.
        var marked := s.(requests := s.requests[i := rq.(status := PaidStatus, paymentMode := paymentMode)]);
        match FindStudent(s.students, rq.studentId)
        case None => Reject(marked, 500, ServerError)
        case Some(j) =>
          var st := s.students[j];
          match CreateTransaction(marked.nextId, st.id, st.name, rq.amount, paymentMode, now)
          case None => Reject(marked, 500, ServerError)
          case Some(t) =>
            Outcome(200, PaySucceeded, marked.(
              ledger := marked.ledger + [t],
              students := marked.students[j := st.(paidFees := st.paidFees + rq.amount)],
              nextId := marked.nextId + 1))
  }
}

=== FILE: reconciliation.dfy ===
/**
 * The dashboard's totals against the store. "Total Collection" sums the ledger and
 * the roster sums `paidFees`; under the store invariant the two agree as long as no
 * transaction belongs to a deleted student, and each write moves them as expected.
 */
module Reconciliation {
  import opened Common
  import opened Models
  import opened Db
  import opened Invariants
  import FeesApi
  import PayApi
  import StudentsApi
  import Dashboard

  /** The ids on the roster. */
  function IdSet(students: seq<Student>): (r: set<Id>)
    ensures forall id :: id in r <==> exists k :: 0 <= k < |students| && students[k].id == id
  {
    if students == [] then {}
    else
      var n := |students| - 1;
      assert forall k :: 0 <= k < n ==> students[..n][k] == students[k];
      IdSet(students[..n]) + {students[n].id}
  }

  /** Every transaction belongs to a student still on the roster. */
  ghost predicate NoOrphans(s: Store)
  {
    forall k :: 0 <= k < |s.ledger| ==> s.ledger[k].studentId in IdSet(s.students)
  }

  /** The ledger summed per roster row: `PaidTotal` of each student's id. */
  function PaidSum(ledger: seq<FeeTransaction>, students: seq<Student>): int
  {
    if students == [] then 0
    else PaidSum(ledger, students[..|students| - 1]) + PaidTotal(ledger, students[|students| - 1].id)
  }

  lemma {:induction false} PaidSumEmpty(students: seq<Student>)
    ensures PaidSum([], students) == 0
  {
    if students != [] {
      PaidSumEmpty(students[..|students| - 1]);
    }
  }

  /** The last row's id is not among the earlier rows' ids, and the earlier rows keep distinct ids. */
  lemma LastIdFresh(students: seq<Student>)
    requires students != []
    requires forall i, j :: 0 <= i < j < |students| ==> students[i].id != students[j].id
    ensures var p := students[..|students| - 1];
      && (forall i, j :: 0 <= i < j < |p| ==> p[i].id != p[j].id)
      && students[|students| - 1].id !in IdSet(p)
      && IdSet(students) == IdSet(p) + {students[|students| - 1].id}
  {
    var n := |students| - 1;
    var p := students[..n];
    assert forall i :: 0 <= i < |p| ==> p[i] == students[i];
  }

  /** With distinct ids, one more transaction adds its amount to the per-row sum exactly when its student is on the roster. */
  lemma {:induction false} PaidSumAppend(ledger: seq<FeeTransaction>, t: FeeTransaction, students: seq<Student>)
    requires forall i, j :: 0 <= i < j < |students| ==> students[i].id != students[j].id
    ensures PaidSum(ledger + [t], students) == PaidSum(ledger, students) + (if t.studentId in IdSet(students) then t.amount else 0)
  {
    if students != [] {
      var n := |students| - 1;
      var p := students[..n];
      var x := students[n].id;
      LastIdFresh(students);
      PaidSumAppend(ledger, t, p);
      PaidTotalAppend(ledger, t, x);
      assert PaidSum(ledger + [t], students) == PaidSum(ledger + [t], p) + PaidTotal(ledger + [t], x);
      assert PaidSum(ledger, students) == PaidSum(ledger, p) + PaidTotal(ledger, x);
    }
  }

  /** With distinct ids and no orphans, the per-row sum is the whole ledger's sum. */
  lemma {:induction false} PaidSumIsCollection(ledger: seq<FeeTransaction>, students: seq<Student>)
    requires forall i, j :: 0 <= i < j < |students| ==> students[i].id != students[j].id
    requires forall k :: 0 <= k < |ledger| ==> ledger[k].studentId in IdSet(students)
    ensures PaidSum(ledger, students) == Dashboard.TotalCollection(ledger)
  {
    if ledger == [] {
      PaidSumEmpty(students);
    } else {
      var n := |ledger| - 1;
      var q := ledger[..n];
      assert ledger == q + [ledger[n]];
      assert forall k :: 0 <= k < |q| ==> q[k] == ledger[k];
      PaidSumIsCollection(q, students);
      PaidSumAppend(q, ledger[n], students);
    }
  }

  /** When each row's `paidFees` is its ledger total, the roster's paid sum is the per-row sum. */
  lemma {:induction false} TotalPaidIsPaidSum(ledger: seq<FeeTransaction>, students: seq<Student>)
    requires forall i :: 0 <= i < |students| ==> students[i].paidFees == PaidTotal(ledger, students[i].id)
    ensures Dashboard.TotalPaid(students) == PaidSum(ledger, students)
  {
    if students != [] {
      var n := |students| - 1;
      assert forall i :: 0 <= i < n ==> students[..n][i] == students[i];
      TotalPaidIsPaidSum(ledger, students[..n]);
    }
  }

  /** "Total Collection" equals the roster's paid sum while no transaction is orphaned. */
  lemma CollectionMatchesPaid(s: Store)
    requires Invariant(s) && NoOrphans(s)
    ensures Dashboard.TotalCollection(s.ledger) == Dashboard.TotalPaid(s.students)
  {
    TotalPaidIsPaidSum(s.ledger, s.students);
    PaidSumIsCollection(s.ledger, s.students);
  }

  /** Removing row `i` removes its `paidFees` from the roster's paid sum. */
  lemma {:induction false} TotalPaidRemove(students: seq<Student>, i: nat)
    requires i < |students|
    ensures Dashboard.TotalPaid(StudentsApi.RemoveAt(students, i)) == Dashboard.TotalPaid(students) - students[i].paidFees
  {
    var n := |students| - 1;
    var r := StudentsApi.RemoveAt(students, i);
    if i == n {
      assert r == students[..n];
    } else {
      assert r[..|r| - 1] == StudentsApi.RemoveAt(students[..n], i);
      TotalPaidRemove(students[..n], i);
    }
  }

  /**
   * Deleting a student who has paid opens a gap of exactly that amount between the
   * collection total and the roster: the transactions stay, the row goes.
   */
  lemma DeleteOpensGap(s: Store, id: Id)
    requires Invariant(s) && NoOrphans(s)
    requires StudentsApi.Delete(s, Some(id)).status == 200
    ensures var r := StudentsApi.Delete(s, Some(id));
      Dashboard.TotalCollection(r.store.ledger)
        == Dashboard.TotalPaid(r.store.students) + s.students[FindStudent(s.students, id).value].paidFees
  {
    CollectionMatchesPaid(s);
    TotalPaidRemove(s.students, FindStudent(s.students, id).value);
  }

  /** A recorded direct payment of `n` adds `n` to the collection and the paid sum and takes it off the pending total. */
  lemma DirectPaymentMovesTotals(s: Store, studentId: Option<Id>, amount: Amount, paymentMode: string, now: int)
    requires FeesApi.Post(s, studentId, amount, paymentMode, now).status == 201
    ensures var r := FeesApi.Post(s, studentId, amount, paymentMode, now);
      var n := amount.number.value;
      && Dashboard.TotalCollection(r.store.ledger) == Dashboard.TotalCollection(s.ledger) + n
      && Dashboard.TotalPaid(r.store.students) == Dashboard.TotalPaid(s.students) + n
      && Dashboard.TotalPending(r.store.students) == Dashboard.TotalPending(s.students) - n
  {
    var r := FeesApi.Post(s, studentId, amount, paymentMode, now);
    var j := FindStudent(s.students, studentId.value).value;
    var st := s.students[j];
    assert r.store.students == s.students[j := st.(paidFees := st.paidFees + amount.number.value)];
    Dashboard.TotalCollectionAppend(s.ledger, r.store.ledger[|s.ledger|]);
    assert r.store.ledger == s.ledger + [r.store.ledger[|s.ledger|]];
    Dashboard.TotalPaidUpdate(s.students, j, st.(paidFees := st.paidFees + amount.number.value));
    Dashboard.TotalPendingUpdate(s.students, j, st.(paidFees := st.paidFees + amount.number.value));
  }

  /** A completed request payment moves the totals by the request's amount. */
  lemma PayMovesTotals(s: Store, requestId: Option<Id>, paymentMode: string, now: int)
    requires PayApi.Post(s, requestId, paymentMode, now).status == 200
    ensures var r := PayApi.Post(s, requestId, paymentMode, now);
      var n := s.requests[FindRequest(s.requests, requestId.value).value].amount;
      && Dashboard.TotalCollection(r.store.ledger) == Dashboard.TotalCollection(s.ledger) + n
      && Dashboard.TotalPaid(r.store.students) == Dashboard.TotalPaid(s.students) + n
      && Dashboard.TotalPending(r.store.students) == Dashboard.TotalPending(s.students) - n
  {
    var r := PayApi.Post(s, requestId, paymentMode, now);
    var rq := s.requests[FindRequest(s.requests, requestId.value).value];
    var j := FindStudent(s.students, rq.studentId).value;
    var st := s.students[j];
    assert r.store.students == s.students[j := st.(paidFees := st.paidFees + rq.amount)];
    Dashboard.TotalCollectionAppend(s.ledger, r.store.ledger[|s.ledger|]);
    assert r.store.ledger == s.ledger + [r.store.ledger[|s.ledger|]];
    Dashboard.TotalPaidUpdate(s.students, j, st.(paidFees := st.paidFees + rq.amount));
    Dashboard.TotalPendingUpdate(s.students, j, st.(paidFees := st.paidFees + rq.amount));
  }
}

=== FILE: seqs.dfy ===
/**
 * Generic sequence queries used by the handlers: the first element satisfying a
 * predicate (`findOne`, `findById`), a filter (`find` with a condition) and a
 * sort by a total preorder (`.sort(...)`).
 */
module Seqs {
  import opened Common

  /** Index of the first element of `s` that satisfies `p`, if any. */
  function FindFirst<T>(s: seq<T>, p: T -> bool): (r: Option<nat>)
    ensures r.Some? ==> r.value < |s| && p(s[r.value])
    ensures r.Some? ==> forall k :: 0 <= k < r.value ==> !p(s[k])
    ensures r.None? <==> forall k :: 0 <= k < |s| ==> !p(s[k])
  {
    if s == [] then None
    else if p(s[0]) then Some(0)
    else match FindFirst(s[1..], p)
      case None => None
      case Some(k) => Some(k + 1)
  }

  /** Two predicates that agree on every element of `s` pick the same first element. */
  lemma FindFirstAgrees<T>(s: seq<T>, p: T -> bool, q: T -> bool)
    requires forall k :: 0 <= k < |s| ==> p(s[k]) == q(s[k])
    ensures FindFirst(s, p) == FindFirst(s, q)
  {
    var a, b := FindFirst(s, p), FindFirst(s, q);
    if a.Some? && b.Some? {
      assert !(a.value < b.value) && !(b.value < a.value);
    }
  }

  /** The elements of `s` that satisfy `p`, in their original order. */
  function Filter<T(!new)>(s: seq<T>, p: T -> bool): (r: seq<T>)
    ensures |r| <= |s|
    ensures multiset(r) <= multiset(s)
    ensures forall x :: x in r <==> x in s && p(x)
    ensures forall x :: multiset(r)[x] == if p(x) then multiset(s)[x] else 0
  {
    if s == [] then []
    else
      assert s == [s[0]] + s[1..];
      (if p(s[0]) then [s[0]] else []) + Filter(s[1..], p)
  }

  /** `le` is total and transitive: ties are allowed, so sorting by a key qualifies. */
  ghost predicate TotalPreorder<T(!new)>(le: (T, T) -> bool)
  {
    && (forall a, b :: le(a, b) || le(b, a))
    && (forall a, b, c :: le(a, b) && le(b, c) ==> le(a, c))
  }

  predicate SortedBy<T>(s: seq<T>, le: (T, T) -> bool)
  {
    forall i, j :: 0 <= i < j < |s| ==> le(s[i], s[j])
  }

  /** Inserts `x` into the sorted sequence `s`, before the first element it precedes. */
  function Insert<T(!new)>(x: T, s: seq<T>, le: (T, T) -> bool): (r: seq<T>)
    requires TotalPreorder(le)
    requires SortedBy(s, le)
    ensures SortedBy(r, le)
    ensures multiset(r) == multiset(s) + multiset{x}
  {
    if s == [] then [x]
    else if le(x, s[0]) then [x] + s
    else
      var t := Insert(x, s[1..], le);
      assert s == [s[0]] + s[1..];
      HeadPrecedesAll(s[0], x, s[1..], t, le);
      [s[0]] + t
  }

  lemma HeadPrecedesAll<T(!new)>(h: T, x: T, s: seq<T>, t: seq<T>, le: (T, T) -> bool)
    requires TotalPreorder(le)
    requires SortedBy([h] + s, le)
    requires !le(x, h)
    requires SortedBy(t, le)
    requires multiset(t) == multiset(s) + multiset{x}
    ensures SortedBy([h] + t, le)
  {
    forall j | 0 <= j < |t|
      ensures le(h, t[j])
    {
      assert t[j] in multiset(t);
      if t[j] == x {
        assert le(x, h) || le(h, x);
      } else {
        assert t[j] in multiset(s);
        var k :| 0 <= k < |s| && s[k] == t[j];
        assert ([h] + s)[0] == h && ([h] + s)[k + 1] == s[k];
      }
    }
    forall i, j | 0 <= i < j < |[h] + t|
      ensures le(([h] + t)[i], ([h] + t)[j])
    {
      if i > 0 {
        assert ([h] + t)[i] == t[i - 1] && ([h] + t)[j] == t[j - 1];
      }
    }
  }

  /** Insertion sort: a sorted permutation of `s`. */
  function Sort<T(!new)>(s: seq<T>, le: (T, T) -> bool): (r: seq<T>)
    requires TotalPreorder(le)
    ensures SortedBy(r, le)
    ensures multiset(r) == multiset(s)
    ensures |r| == |s|
    ensures forall x :: x in r <==> x in s
  {
    if s == [] then []
    else
      assert s == [s[0]] + s[1..];
      var r := Insert(s[0], Sort(s[1..], le), le);
      SameMembers(r, s);
      r
  }

  /** Sequences with the same multiset have the same members. */
  lemma SameMembers<T(!new)>(a: seq<T>, b: seq<T>)
    requires multiset(a) == multiset(b)
    ensures forall x :: x in a <==> x in b
  {
    forall x
      ensures x in a <==> x in b
    {
      assert x in a <==> x in multiset(a);
      assert x in b <==> x in multiset(b);
    }
  }
}

=== FILE: students_api.dfy ===
/** The `/api/students` route: the roster listing, creation, update and deletion. */
module StudentsApi {
  import opened Common
  import opened Seqs
  import opened Text
  import opened Models
  import opened Db

  /** The JSON body of a create or update. An absent string field is "". */
  datatype StudentForm = StudentForm(
    name: string,
    rollNo: string,
    cls: string,
    session: string,
    totalFees: Amount,
    parentName: string,
    contact: string)

  /** The handlers' own check: a required field is falsy. */
  predicate Incomplete(f: StudentForm)
  {
    f.name == "" || f.rollNo == "" || f.cls == "" || f.session == "" || f.totalFees.Falsy?
  }

  /** The unique key the form describes once its fields are trimmed as the handlers trim them. */
  function FormKey(f: StudentForm): StudentKey
  {
    StudentKey(Trim(f.rollNo), f.cls, Trim(f.session))
  }

  /**
   * The document the handlers write for a form: trimmed name, roll number and session,
   * `Number(totalFees)`, the given `paidFees`. `None` when the schema's validation
   * (required paths, a castable number) rejects it.
   */
  function Assemble(id: Id, f: StudentForm, paidFees: int): (r: Option<Student>)
    ensures r.Some? <==>
      && Trim(f.name) != "" && Trim(f.rollNo) != "" && f.cls != "" && Trim(f.session) != ""
      && f.totalFees.Truthy? && f.totalFees.number.Some?
    ensures r.Some? ==>
      && ValidStudent(r.value) && Key(r.value) == FormKey(f)
      && r.value.id == id && r.value.name == Trim(f.name)
      && r.value.totalFees == f.totalFees.number.value && r.value.paidFees == paidFees
      && r.value.parentName == f.parentName && r.value.contact == f.contact
  {
    match f.totalFees
    case Truthy(Some(n)) =>
      var st := Student(id, Trim(f.name), Trim(f.rollNo), f.cls, Trim(f.session), f.parentName, f.contact, n, paidFees);
      if ValidStudent(st) then Some(st) else None
    case _ => None
  }

  predicate RollNoLe(a: Student, b: Student)
  {
    LexLe(a.rollNo, b.rollNo)
  }

  lemma RollNoIsPreorder()
    ensures TotalPreorder(RollNoLe)
  {
    forall a: Student, b: Student
      ensures RollNoLe(a, b) || RollNoLe(b, a)
    {
      LexLeTotal(a.rollNo, b.rollNo);
    }
    forall a: Student, b: Student, c: Student | RollNoLe(a, b) && RollNoLe(b, c)
      ensures RollNoLe(a, c)
    {
      LexLeTransitive(a.rollNo, b.rollNo, c.rollNo);
    }
  }

  /** GET: every student, ordered by roll number as strings. */
  function Get(s: Store): (r: Outcome)
    ensures r.status == 200 && r.store == s && r.body.Students?
    ensures multiset(r.body.students) == multiset(s.students)
    ensures forall i, j :: 0 <= i < j < |r.body.students| ==> LexLe(r.body.students[i].rollNo, r.body.students[j].rollNo)
  {
    RollNoIsPreorder();
    Outcome(200, Students(Sort(s.students, RollNoLe)), s)
  }

  /** A student other than `self` already holds `key`. */
  function Clash(students: seq<Student>, key: StudentKey, self: Option<Id>): (r: Option<nat>)
    ensures r.Some? ==> r.value < |students| && Key(students[r.value]) == key
    ensures r.Some? && self.Some? ==> students[r.value].id != self.value
    ensures r.None? <==> forall k :: 0 <= k < |students| ==> Key(students[k]) == key ==> self == Some(students[k].id)
  {
    FindFirst(students, (x: Student) => Key(x) == key && self != Some(x.id))
  }

  /**
   * POST: creates a student with `paidFees` 0. A falsy required field is 400 before
   * anything else; a field that is blank once trimmed, or a non-numeric total, fails the
   * schema (400); an existing `(rollNo, class, session)` violates the unique index (409).
   */
  function Post(s: Store, f: StudentForm): (r: Outcome)
    ensures r.status in {201, 400, 409}
    ensures r.status != 201 ==> r.store == s
    ensures Incomplete(f) ==> r.status == 400
    ensures r.status == 400 <==> Incomplete(f) || Assemble(s.nextId, f, 0).None?
    ensures r.status == 409 <==> Assemble(s.nextId, f, 0).Some? && Clash(s.students, FormKey(f), None).Some?
    ensures r.status == 201 <==>
      !Incomplete(f) && Assemble(s.nextId, f, 0).Some? && Clash(s.students, FormKey(f), None).None?
    ensures r.status == 201 ==>
      && !Incomplete(f) && f.totalFees.number.Some? && r.body.Created?
      && r.store.students == s.students + [r.body.student]
      && r.body.student.id == s.nextId && r.body.student.paidFees == 0 && r.store.nextId == s.nextId + 1
      && r.body.student.name == Trim(f.name) && Key(r.body.student) == FormKey(f)
      && r.body.student.totalFees == f.totalFees.number.value
      && r.body.student.parentName == f.parentName && r.body.student.contact == f.contact
      && ValidStudent(r.body.student)
      && (forall k :: 0 <= k < |s.students| ==> Key(s.students[k]) != FormKey(f))
      && r.store.requests == s.requests && r.store.ledger == s.ledger
  {
    if Incomplete(f) then Reject(s, 400, FieldsMissing)
    else match Assemble(s.nextId, f, 0)
      case None => Reject(s, 400, ValidationFailed)
      case Some(st) =>
        if Clash(s.students, Key(st), None).Some? then Reject(s, 409, DuplicateStudent)
        else Outcome(201, Created(st), s.(students := s.students + [st], nextId := s.nextId + 1))
  }

  /**
   * `after` is `before` with the form's fields written over it: identity and `paidFees`
   * are kept, the rest comes from the (trimmed) form, and the result is schema-valid.
   */
  predicate Overwrites(before: Student, after: Student, f: StudentForm)
  {
    && after.id == before.id && after.paidFees == before.paidFees
    && after.name == Trim(f.name) && Key(after) == FormKey(f)
    && f.totalFees.Truthy? && f.totalFees.number.Some? && after.totalFees == f.totalFees.number.value
    && after.parentName == f.parentName && after.contact == f.contact
    && ValidStudent(after)
  }

  /**
   * PUT: overwrites name, roll number, class, session, total, parent name and contact
   * of the student `id`, and nothing else. Another student holding the trimmed key is a
   * conflict (409); a value the update validators reject is 500; an unknown id updates
   * nothing and answers 200 with a null student.
   */
  function Put(s: Store, id: Option<Id>, f: StudentForm): (r: Outcome)
    ensures r.status in {200, 400, 409, 500}
    ensures r.status == 400 <==> id.None? || Incomplete(f)
    ensures r.status == 409 <==> id.Some? && !Incomplete(f) && Clash(s.students, FormKey(f), id).Some?
    ensures r.status == 500 <==>
      id.Some? && !Incomplete(f) && Clash(s.students, FormKey(f), id).None? && Assemble(id.value, f, 0).None?
    ensures r.status != 200 || FindStudent(s.students, id.value).None? ==> r.store == s
    ensures r.status == 200 ==> r.body.Updated? && (r.body.updated.None? <==> FindStudent(s.students, id.value).None?)
    ensures r.status == 200 && FindStudent(s.students, id.value).Some? ==>
      var i := FindStudent(s.students, id.value).value;
      && |r.store.students| == |s.students|
      && r.body.updated == Some(r.store.students[i])
      && r.store.students == s.students[i := r.store.students[i]]
      && Overwrites(s.students[i], r.store.students[i], f)
      && r.store.requests == s.requests && r.store.ledger == s.ledger && r.store.nextId == s.nextId
    ensures r.status == 200 ==>
      forall k :: 0 <= k < |s.students| && Key(s.students[k]) == FormKey(f) ==> s.students[k].id == id.value
  {
    if id.None? then Reject(s, 400, StudentIdMissing)
    else if Incomplete(f) then Reject(s, 400, FieldsMissing)
    else if Clash(s.students, FormKey(f), id).Some? then Reject(s, 409, DuplicateStudent)
    else match FindStudent(s.students, id.value)
      case None =>
        if Assemble(id.value, f, 0).None? then Reject(s, 500, ServerError)
        else Outcome(200, Updated(None), s)
      case Some(i) => Overwrite(s, i, f)
  }

  /** The `findByIdAndUpdate` of PUT on the student at index `i`, update validators included. */
  function Overwrite(s: Store, i: nat, f: StudentForm): (r: Outcome)
    requires i < |s.students|
    ensures r.status == 200 || r.status == 500
    ensures r.status == 500 ==> r.store == s
    ensures r.status == 200 <==> Assemble(s.students[i].id, f, s.students[i].paidFees).Some?
    ensures r.status == 200 ==>
      && |r.store.students| == |s.students|
      && r.body.Updated? && r.body.updated == Some(r.store.students[i])
      && r.store.students == s.students[i := r.store.students[i]]
      && Overwrites(s.students[i], r.store.students[i], f)
      && r.store.requests == s.requests && r.store.ledger == s.ledger && r.store.nextId == s.nextId
  {
    var prev := s.students[i];
    match Assemble(prev.id, f, prev.paidFees)
    case None => Reject(s, 500, ServerError)
    case Some(st) => Outcome(200, Updated(Some(st)), s.(students := s.students[i := st]))
  }

  /** The store's students without the one at index `i`. */
  function RemoveAt(students: seq<Student>, i: nat): (r: seq<Student>)
    requires i < |students|
    ensures |r| == |students| - 1
    ensures forall k :: 0 <= k < i ==> r[k] == students[k]
    ensures forall k :: i <= k < |r| ==> r[k] == students[k + 1]
  {
    students[..i] + students[i + 1..]
  }

  /** DELETE: removes the student `id`; the student's requests and transactions stay. */
  function Delete(s: Store, id: Option<Id>): (r: Outcome)
    ensures r.status in {200, 400, 404}
    ensures r.status != 200 ==> r.store == s
    ensures r.status == 400 <==> id.None?
    ensures r.status == 404 <==> id.Some? && FindStudent(s.students, id.value).None?
    ensures r.status == 200 ==>
      && r.body == Deleted
      && r.store.students == RemoveAt(s.students, FindStudent(s.students, id.value).value)
      && r.store.requests == s.requests && r.store.ledger == s.ledger && r.store.nextId == s.nextId
  {
    if id.None? then Reject(s, 400, StudentIdMissing)
    else match FindStudent(s.students, id.value)
      case None => Reject(s, 404, StudentNotFound)
      case Some(i) => Outcome(200, Deleted, s.(students := RemoveAt(s.students, i)))
  }
}

=== FILE: text.dfy ===
/**
 * The string operations the handlers rely on: JavaScript's `String.prototype.trim`,
 * the ASCII case folding of a case-insensitive regular expression, MongoDB's
 * binary string order (used by `.sort({ rollNo: 1 })`) and `Number(...)` on the
 * decimal strings an HTML number input produces.
 */
module Text {
  import opened Common

  /** The characters `trim` removes: ECMAScript WhiteSpace (including every Zs space) and LineTerminator. */
  predicate IsSpace(c: char)
  {
    || c == ' ' || c == '\t' || c == '\n' || c == '\r'
    || c == '\U{000B}' || c == '\U{000C}' || c == '\U{00A0}' || c == '\U{1680}'
    || ('\U{2000}' <= c <= '\U{200A}')
    || c == '\U{2028}' || c == '\U{2029}' || c == '\U{202F}' || c == '\U{205F}'
    || c == '\U{3000}' || c == '\U{FEFF}'
  }

  /** Drops the leading white space: what remains is a suffix starting with a non-space. */
  function TrimStart(s: string): (r: string)
    ensures |r| <= |s| && r == s[|s| - |r|..]
    ensures forall k :: 0 <= k < |s| - |r| ==> IsSpace(s[k])
    ensures r != [] ==> !IsSpace(r[0])
  {
    if s != [] && IsSpace(s[0]) then TrimStart(s[1..]) else s
  }

  /** Drops the trailing white space: what remains is a prefix ending with a non-space. */
  function TrimEnd(s: string): (r: string)
    ensures |r| <= |s| && r == s[..|r|]
    ensures forall k :: |r| <= k < |s| ==> IsSpace(s[k])
    ensures r != [] ==> !IsSpace(r[|r| - 1])
  {
    if s != [] && IsSpace(s[|s| - 1]) then TrimEnd(s[..|s| - 1]) else s
  }

  predicate IsTrimmed(s: string)
  {
    s == [] || (!IsSpace(s[0]) && !IsSpace(s[|s| - 1]))
  }

  /** `s[i..j]` is what remains of `s` once only white space is cut off before `i` and from `j` on. */
  predicate TrimmedSlice(s: string, i: int, j: int)
  {
    && 0 <= i <= j <= |s|
    && (forall k :: 0 <= k < i ==> IsSpace(s[k]))
    && (forall k :: j <= k < |s| ==> IsSpace(s[k]))
  }

  /**
   * `s.trim()`: no white space at either end, and a trimmed string is left alone;
   * `TrimCutsOnlyEnds` shows nothing but the white space at the two ends is removed.
   */
  function Trim(s: string): (r: string)
    ensures IsTrimmed(r)
    ensures |r| <= |s|
    ensures IsTrimmed(s) ==> r == s
  {
    var t := TrimStart(s);
    var r := TrimEnd(t);
    assert r != [] ==> r[0] == t[0];
    r
  }

  /** Trimming cuts only white space, and only at the two ends: the result is a slice of the input. */
  lemma TrimCutsOnlyEnds(s: string)
    ensures exists i, j :: TrimmedSlice(s, i, j) && Trim(s) == s[i..j]
  {
    var t := TrimStart(s);
    var r := TrimEnd(t);
    var i := |s| - |t|;
    var j := i + |r|;
    assert r == s[i..j] by {
      assert t == s[i..];
      assert r == t[..|r|];
    }
    forall k | j <= k < |s|
      ensures IsSpace(s[k])
    {
      assert s[k] == t[k - i];
    }
    assert Trim(s) == s[i..j];
  }

  /** Trimming twice is trimming once (why Mongoose's `trim: true` adds nothing to a handler's `.trim()`). */
  lemma TrimIdempotent(s: string)
    ensures Trim(Trim(s)) == Trim(s)
  {
  }

  /** Simple case folding of the ASCII letters. */
  function Lower(c: char): char
  {
    if 'A' <= c <= 'Z' then (c as int + 32) as char else c
  }

  /** Equality up to ASCII letter case: what `/^name$/i` tests when `name` has no metacharacters. */
  predicate EqualsIgnoreCase(a: string, b: string)
  {
    |a| == |b| && forall k :: 0 <= k < |a| ==> Lower(a[k]) == Lower(b[k])
  }

  lemma EqualsIgnoreCaseSymmetric(a: string, b: string)
    requires EqualsIgnoreCase(a, b)
    ensures EqualsIgnoreCase(b, a)
  {
  }

  lemma EqualsIgnoreCaseTransitive(a: string, b: string, c: string)
    requires EqualsIgnoreCase(a, b) && EqualsIgnoreCase(b, c)
    ensures EqualsIgnoreCase(a, c)
  {
  }

  /** Lexicographic order by code point, with a prefix before its extensions. */
  predicate LexLe(a: string, b: string)
  {
    a == [] || (b != [] && (a[0] < b[0] || (a[0] == b[0] && LexLe(a[1..], b[1..]))))
  }

  lemma {:induction false} LexLeTotal(a: string, b: string)
    ensures LexLe(a, b) || LexLe(b, a)
  {
    if a != [] && b != [] && a[0] == b[0] {
      LexLeTotal(a[1..], b[1..]);
    }
  }

  lemma {:induction false} LexLeTransitive(a: string, b: string, c: string)
    requires LexLe(a, b) && LexLe(b, c)
    ensures LexLe(a, c)
  {
    if a != [] && b != [] && c != [] && a[0] == b[0] && b[0] == c[0] {
      LexLeTransitive(a[1..], b[1..], c[1..]);
    }
  }

  lemma {:induction false} LexLeAntisymmetric(a: string, b: string)
    requires LexLe(a, b) && LexLe(b, a)
    ensures a == b
  {
    if a != [] && b != [] {
      LexLeAntisymmetric(a[1..], b[1..]);
      assert a == [a[0]] + a[1..] && b == [b[0]] + b[1..];
    }
  }

  predicate IsDigit(c: char)
  {
    '0' <= c <= '9'
  }

  predicate AllDigits(s: string)
  {
    forall k :: 0 <= k < |s| ==> IsDigit(s[k])
  }

  /** The value of a string of decimal digits. */
  function DigitsValue(s: string): nat
    requires AllDigits(s)
  {
    if s == [] then 0 else DigitsValue(s[..|s| - 1]) * 10 + (s[|s| - 1] as int - '0' as int)
  }

  /** `Number(s)` on an optional minus sign followed by decimal digits; `None` stands for NaN. */
  function ParseNumber(s: string): Option<int>
  {
    if |s| > 1 && s[0] == '-' && AllDigits(s[1..]) then Some(-(DigitsValue(s[1..]) as int))
    else if s != [] && AllDigits(s) then Some(DigitsValue(s))
    else None
  }

  /** Decimal rendering of a natural number, without leading zeros. */
  function ShowNat(n: nat): (r: string)
    ensures r != [] && AllDigits(r)
    ensures DigitsValue(r) == n
    ensures |r| > 1 ==> r[0] != '0'
  {
    if n < 10 then [('0' as int + n) as char]
    else
      var r := ShowNat(n / 10) + [('0' as int + n % 10) as char];
      assert r[..|r| - 1] == ShowNat(n / 10);
      r
  }

  /** Decimal rendering of an integer, with a minus sign when negative. */
  function ShowInt(n: int): string
  {
    if n < 0 then "-" + ShowNat(-n) else ShowNat(n)
  }

  /** Parsing undoes rendering: every integer typed into a number input reads back as itself. */
  lemma ParseShowInt(n: int)
    ensures ParseNumber(ShowInt(n)) == Some(n)
  {
    if n < 0 {
      var d := ShowNat(-n);
      assert ("-" + d)[1..] == d;
    } else {
      assert ShowInt(n)[0] != '-';
    }
  }
}

=== FILE: workflow.dfy ===
/**
 * How the handlers relate to one another: what one call makes another call see.
 * Payment against listing and re-requesting, creation against listing, login
 * and deletion, update against itself, and direct payment against the due check.
 */
module Workflow {
  import opened Common
  import opened Models
  import opened Db
  import opened Invariants
  import FeesApi
  import FeeRequestApi
  import PayApi
  import StudentsApi
  import LoginApi

  /**
   * Once paid (even when the payment then fails at the ledger), a request drops out of
   * its student's pending list, and a new request for that student is no longer refused
   * as a duplicate: "paid" is not "Pending".
   */
  lemma PaidRequestLeavesPending(s: Store, requestId: Option<Id>, paymentMode: string, now: int, amount: Amount, later: int)
    requires Invariant(s)
    requires PayApi.Found(s, requestId)
    requires IsPending(s.requests[FindRequest(s.requests, requestId.value).value])
    ensures var r := PayApi.Post(s, requestId, paymentMode, now);
      var rq := s.requests[FindRequest(s.requests, requestId.value).value];
      && (forall x :: x in FeeRequestApi.Get(r.store, Some(rq.studentId)).body.requests ==> x.id != requestId.value)
      && FeeRequestApi.Post(r.store, Some(rq.studentId), amount, later).status != 409
  {
    var r := PayApi.Post(s, requestId, paymentMode, now);
    var i := FindRequest(s.requests, requestId.value).value;
    var rq := s.requests[i];
    forall k | 0 <= k < |r.store.requests|
      ensures !(r.store.requests[k].studentId == rq.studentId && IsPending(r.store.requests[k]))
      ensures IsPending(r.store.requests[k]) ==> r.store.requests[k].id != requestId.value
    {
      if k != i {
        assert r.store.requests[k] == s.requests[k];
        if IsPending(s.requests[k]) {
          assert s.requests[k].studentId != rq.studentId by {
            if k < i {} else {}
          }
        }
        assert s.requests[k].id != s.requests[i].id by {
          if k < i {} else {}
        }
      }
    }
    assert FindPending(r.store.requests, rq.studentId).None?;
  }

  /** While a request is pending, a second request for the same student is a conflict. */
  lemma SecondRequestConflicts(s: Store, studentId: Id, amount: Amount, now: int, again: Amount, later: int)
    requires FeeRequestApi.Post(s, Some(studentId), amount, now).status == 200
    requires again.Truthy?
    ensures FeeRequestApi.Post(FeeRequestApi.Post(s, Some(studentId), amount, now).store, Some(studentId), again, later).status == 409
  {
    var r := FeeRequestApi.Post(s, Some(studentId), amount, now);
    var n := |s.requests|;
    assert r.store.requests[n].studentId == studentId && IsPending(r.store.requests[n]);
  }

  /** A created request is listed among its student's pending requests. */
  lemma CreatedRequestListed(s: Store, studentId: Id, amount: Amount, now: int)
    requires FeeRequestApi.Post(s, Some(studentId), amount, now).status == 200
    ensures var s' := FeeRequestApi.Post(s, Some(studentId), amount, now).store;
      s'.requests[|s.requests|] in FeeRequestApi.Get(s', Some(studentId)).body.requests
  {
  }

  /** A student just created can log in with the name, roll number and class it was created with. */
  lemma CreatedStudentCanLogIn(s: Store, f: StudentsApi.StudentForm)
    requires StudentsApi.Post(s, f).status == 201
    ensures LoginApi.Post(StudentsApi.Post(s, f).store, f.name, f.rollNo, f.cls).status == 200
  {
    var r := StudentsApi.Post(s, f);
    var k := |s.students|;
    assert r.store.students[k] == r.body.student;
    assert LoginApi.Matches(r.store.students[k], f.name, f.rollNo, f.cls);
  }

  /** Deleting the student just created restores the roster; the id is not reissued. */
  lemma DeleteUndoesCreate(s: Store, f: StudentsApi.StudentForm)
    requires IdsIssued(s)
    requires StudentsApi.Post(s, f).status == 201
    ensures var s1 := StudentsApi.Post(s, f).store;
      var r := StudentsApi.Delete(s1, Some(s.nextId));
      && r.status == 200
      && r.store.students == s.students && r.store.requests == s.requests && r.store.ledger == s.ledger
  {
    var p := StudentsApi.Post(s, f);
    var s1 := p.store;
    var n := |s.students|;
    assert s1.students == s.students + [p.body.student];
    assert s1.students[n].id == s.nextId;
    forall k | 0 <= k < n ensures s1.students[k].id != s.nextId {
      assert s1.students[k] == s.students[k];
    }
    assert FindStudent(s1.students, s.nextId) == Some(n);
    assert StudentsApi.RemoveAt(s1.students, n) == s.students;
  }

  /** On a known id with a complete form and no conflict, PUT is the overwrite of that row. */
  lemma PutKnown(s: Store, id: Option<Id>, f: StudentsApi.StudentForm, i: nat)
    requires id.Some? && !StudentsApi.Incomplete(f) && StudentsApi.Clash(s.students, StudentsApi.FormKey(f), id).None?
    requires FindStudent(s.students, id.value) == Some(i)
    ensures StudentsApi.Put(s, id, f) == StudentsApi.Overwrite(s, i, f)
  {
  }

  /** Writing the same form over a row twice is writing it once. */
  lemma OverwriteIdempotent(s: Store, i: nat, f: StudentsApi.StudentForm)
    requires i < |s.students| && StudentsApi.Overwrite(s, i, f).status == 200
    ensures StudentsApi.Overwrite(StudentsApi.Overwrite(s, i, f).store, i, f) == StudentsApi.Overwrite(s, i, f)
  {
    var t := StudentsApi.Overwrite(s, i, f).store.students;
    assert t[i := t[i]] == t;
  }

  /** After the overwrite the row is still found under its id, and the key still clashes with no other row. */
  lemma OverwriteKeepsLookup(s: Store, i: nat, f: StudentsApi.StudentForm, id: Id)
    requires i < |s.students| && StudentsApi.Overwrite(s, i, f).status == 200
    requires FindStudent(s.students, id) == Some(i)
    requires StudentsApi.Clash(s.students, StudentsApi.FormKey(f), Some(id)).None?
    ensures var t := StudentsApi.Overwrite(s, i, f).store.students;
      StudentsApi.Clash(t, StudentsApi.FormKey(f), Some(id)).None? && FindStudent(t, id) == Some(i)
  {
    var t := StudentsApi.Overwrite(s, i, f).store.students;
    forall k | 0 <= k < |t| && Key(t[k]) == StudentsApi.FormKey(f)
      ensures Some(id) == Some(t[k].id)
    {
      if k != i { assert t[k] == s.students[k]; }
    }
    forall k | 0 <= k < i
      ensures t[k].id != id
    {
      assert t[k] == s.students[k];
    }
  }

  /** Sending the same update twice is the same as sending it once. */
  lemma PutIdempotent(s: Store, id: Option<Id>, f: StudentsApi.StudentForm)
    requires StudentsApi.Put(s, id, f).status == 200
    ensures var r := StudentsApi.Put(s, id, f);
      StudentsApi.Put(r.store, id, f) == r
  {
    if FindStudent(s.students, id.value).Some? {
      var i := FindStudent(s.students, id.value).value;
      PutKnown(s, id, f, i);
      OverwriteKeepsLookup(s, i, f, id.value);
      PutKnown(StudentsApi.Overwrite(s, i, f).store, id, f, i);
      OverwriteIdempotent(s, i, f);
    }
  }

  /** A payment of exactly the balance due is accepted and leaves nothing due. */
  lemma ExactDueAccepted(s: Store, studentId: Id, paymentMode: string, now: int)
    requires FindStudent(s.students, studentId).Some?
    requires var st := s.students[FindStudent(s.students, studentId).value];
      BalanceDue(st) > 0 && st.name != "" && ParseMode(paymentMode).Some?
    ensures var st := s.students[FindStudent(s.students, studentId).value];
      var r := FeesApi.Post(s, Some(studentId), Truthy(Some(BalanceDue(st))), paymentMode, now);
      r.status == 201 && BalanceDue(r.store.students[FindStudent(s.students, studentId).value]) == 0
  {
  }

  /** With nothing due, every positive direct payment is refused with 400 and changes nothing. */
  lemma NothingDueRejectsPayment(s: Store, studentId: Id, n: int, paymentMode: string, now: int)
    requires FindStudent(s.students, studentId).Some?
    requires BalanceDue(s.students[FindStudent(s.students, studentId).value]) <= 0
    requires n > 0 && paymentMode != ""
    ensures var r := FeesApi.Post(s, Some(studentId), Truthy(Some(n)), paymentMode, now);
      r.status == 400 && r.store == s
  {
  }

  /** The worked example: 5000 due in total, 2000 paid, 1000 recorded in cash. */
  lemma CashPaymentExample(st: Student, now: int)
    requires st.totalFees == 5000 && st.paidFees == 2000 && st.name == "Asha"
    ensures var s := Store([st], [], [], st.id + 1);
      var r := FeesApi.Post(s, Some(st.id), Truthy(Some(1000)), "Cash", now);
      && r.status == 201 && r.store.students[0].paidFees == 3000
      && |r.store.ledger| == 1 && r.store.ledger[0].amount == 1000 && r.store.ledger[0].paymentMode == Cash
  {
    var s := Store([st], [], [], st.id + 1);
    assert FindStudent(s.students, st.id) == Some(0);
  }
}
